=== FILE: README.md ===
# 2Park integration — a Dafny model of its refresh cycle and projections

This project models the logic of the 2Park Home Assistant integration that turns the 2Park
parking service's JSON replies into the state shown to the user, and proves properties of
it. It covers four parts:

- **Refresh cycle** (`Coordinator`, `Normalizer`). `_async_update_data` walks the account's
  products in order and fetches the balance and then the details of each one. An
  `AuthenticationError` leads to one re-authentication with the stored credentials and one
  retry of both calls. A failure ends the cycle as `UpdateFailed` (transient) or
  `ConfigEntryAuthFailed` (fatal), and no partial snapshot is published. Each product's
  payloads are normalised into one snapshot entry. Resident-permit products (options
  containing "FLPN") take their de-duplicated FLPN members from the identifications. Visitor
  products take the `LPN` members of `pdt_members`.
- **Client helpers** (`Api`):
  - the envelope status checks;
  - the default-empty unwrapping of the read calls;
  - the flattening of the category listing;
  - the location lookup with its `^(BDA)\w+_(\d+)\$` fallback;
  - the start-action parameter list.
- **Sensors** (`Sensor`):
  - the active-parking count and member list;
  - the per-member parked status;
  - the action attributes of a member's first action;
  - the balance unit;
  - the detector that adds a sensor for every member id that appears after setup.
- **Plate picker** (`Select`):
  - options formatted as "PLATE (nickname)";
  - `extract_plate`;
  - clearing a selection whose plate disappeared;
  - pickers only for visitor products.

Supporting modules:

- `Wrappers`: `Option` and `Result`.
- `Seqs`: order-preserving filtering and first-occurrence de-duplication.
- `Strings`: substring search and the ASCII character classes of the pattern.
- `Dicts`: Python's insertion-ordered `dict`, where `d[k] = v` replaces a value in place or appends a new key.
- `Payloads`: the JSON records.

The design choices below affect how the contracts read:

- **JSON values.** A value slot (`prr_value`, `atn_id`) is `Missing`, `Null` or `Text`, because the source treats an absent key and a JSON null differently. A list-valued key that is absent reads as the empty list, exactly as `.get(key, [])` does.
- **The service.** In the cycle, the service is a `Client` whose every reply is a function of all exchanges before it in the cycle and of the call's arguments, so a session that expires part-way through is within the model.
- **The call log.** The cycle returns a log of `Entry(call, kind)` records. `Orderly` states the order the source imposes on the calls:
  - a details call comes only after its product's balance call was answered;
  - a re-authentication comes only right after a refused first-attempt read, with the stored credentials, so there is at most one per product;
  - after a re-authentication, the next call is the balance call of the same product;
  - a refused first-attempt read is always followed by a re-authentication;
  - no call follows an error the cycle does not recover from.

  `Faithful` states that every entry records the client's reply to that call.
- **Two behaviours of the code worth knowing.**
  - `get_balance`, `get_product_details` and `get_categories` never inspect the envelope status. They fail only when the service cannot be reached.
  - A `ConnectionError` from `authenticate` during the retry ends the cycle as `UpdateFailed`, not as `ConfigEntryAuthFailed`.
- **Re-authentication is unreachable over this client.** Because the read calls never raise `AuthenticationError`, the re-authentication branch of the cycle cannot be reached through the client of `api.py`. `Coordinator.ReauthenticationUnreachable` proves this. If the service answers an expired session with an envelope without `data`, the reads return empty payloads, which normalise to an entry with no balance and no members. The general `Client` model keeps the branch reachable so that its behaviour can be stated and proved.

## Model

| member | source | states |
|---|---|---|
| Api.Authenticate | custom_components/2park/api.py:40-61 | succeeds, with `True`, exactly when the envelope has a status with a code whose major is "OK"; a missing level counts as not OK and gives `AuthenticationError`; a transport failure gives `ConnectionError` |
| Api.GetBalance | custom_components/2park/api.py:112-125 | fails only on a transport failure, with `ConnectionError`; otherwise returns `data.balance`, or the empty balance when `data` or `balance` is absent, whatever the status says |
| Api.GetProductDetails | custom_components/2park/api.py:97-110 | fails only on a transport failure, with `ConnectionError`; otherwise returns `data` or the empty details |
| Api.ReadsNeverRaiseAuthenticationError | custom_components/2park/api.py:97-125 | neither read call can fail with `AuthenticationError`, whatever the reply |
| Api.StartActionParams | custom_components/2park/api.py:127-148 | exactly four parameters, in the order MBR_IDENT, TIMESTART, TIMEEND, LOCATION, carrying the plate, the given start time or the current time when none is given, the end time and the location |
| Api.ActionReply | custom_components/2park/api.py:160-198 | a start or stop command succeeds exactly when the major status is "OK", returning `data` or `{}`; otherwise it fails with `TwoParkApiError` carrying "Failed to start/stop parking: " and the status message; a transport failure gives `ConnectionError` |
| Api.ActionReplyAgreesWithAuthenticate | custom_components/2park/api.py:40-61 | a command reply is accepted exactly when `authenticate` would accept it; an unreachable service is a `ConnectionError` to both; a rejection is `AuthenticationError` at login and `TwoParkApiError` for a command |
| Api.MissingMessageIsUnknownError | custom_components/2park/api.py:167-170 | a rejected command without a status message reports "Unknown error" |
| Api.LocationIn | custom_components/2park/api.py:209-213 | the value of the first `LOCATION` parameter whose value is a non-empty string; none when there is no such parameter |
| Api.LocationInGroupsIsFirstOverall | custom_components/2park/api.py:208-213 | scanning group by group finds the same value as one scan over all groups' parameters in order |
| Api.LocationFromIdSound | custom_components/2park/api.py:214-219 | every location derived from the product id comes from a match of `^(BDA)\w+_(\d+)\$` and is "BDA" followed by the digit group |
| Api.LocationFromIdComplete | custom_components/2park/api.py:214-219 | every match of the pattern yields "BDA" followed by its digit group |
| Api.ExtractLocation | custom_components/2park/api.py:206-219 | a location that is present is never the empty string |
| Api.ExtractLocationSpec | custom_components/2park/api.py:206-219 | the location is the first truthy `LOCATION` value over all groups; only when there is none does the id decide, present exactly when it matches the pattern, as "BDA" plus the digit group |
| Api.FlattenCategories | custom_components/2park/api.py:78-95 | the flattened list has as many products as all categories together |
| Api.FlattenCategoriesIndex | custom_components/2park/api.py:78-95 | product `j` of category `c` sits at position (products of the earlier categories) + `j`, with its id, name, options and location copied: category-major order |
| Api.GetCategories | custom_components/2park/api.py:63-95 | fails only on a transport failure; an absent `data` gives no products; otherwise one product per listed product |
| Normalizer.ExtractParam | custom_components/2park/coordinator.py:118-123 | the value of the first parameter with the wanted label (absent or null reads as none); none when no label matches |
| Normalizer.ExtractNickname | custom_components/2park/coordinator.py:138-143 | the value of the first `NICKNAME` parameter; none when there is none |
| Normalizer.ExtractBalanceAsWritten | custom_components/2park/coordinator.py:107-115 | as written: no `AMOUNT` gives none; otherwise the first `AMOUNT` alone decides, and a null value escapes as `TypeError` |
| Normalizer.NullAmountRaises | custom_components/2park/coordinator.py:107-115 | a balance whose `AMOUNT` value is JSON null makes the written parser raise |
| Normalizer.ExtractBalance | custom_components/2park/coordinator.py:107-115 | the first `AMOUNT` parameter alone decides; a missing, null or unparseable value gives none; no `AMOUNT` gives none; a result implies a first `AMOUNT` holding a string |
| Normalizer.ExtractBalanceCorrectsNullAmount | custom_components/2park/coordinator.py:107-115 | the corrected parser agrees with the written one wherever that returns, and gives none exactly where it raises |
| Normalizer.ExtractFlpnMembers | custom_components/2park/coordinator.py:126-135 | every member is FLPN and no two share an `mbr_id` |
| Normalizer.ExtractFlpnMembersOrder | custom_components/2park/coordinator.py:126-135 | the result keeps input order across identifications then members, each kept member is the first FLPN occurrence of its id, and every FLPN id in the input is present |
| Normalizer.SelectMembers | custom_components/2park/coordinator.py:72-82 | with "FLPN" in the options: exactly the members `_extract_flpn_members` returns, all FLPN with distinct ids; otherwise exactly the `LPN` members of `pdt_members`, as a multiset, duplicates kept |
| Normalizer.VisitorMembersInOrder | custom_components/2park/coordinator.py:78-82 | the visitor branch keeps `pdt_members` order |
| Normalizer.NormalizeProduct | custom_components/2park/coordinator.py:84-102 | name, options and location copied from the product; balance, currency code and description from the balance parameters; one member per selected member, in order, with id, plate, type and active flag copied, the nickname extracted and the actions passed on |
| Dicts.GetAfterPut | custom_components/2park/coordinator.py:84 | after `data[pdt_id] = ...` the key maps to the new value and every other key keeps its value |
| Coordinator.FetchPair | custom_components/2park/coordinator.py:49-51 | the balance call comes first; the details call is made exactly when the balance call answered; the pair succeeds only when both answered, with both payloads |
| Coordinator.FetchProduct | custom_components/2park/coordinator.py:49-70 | one product's fetch adds one to five calls to the log, keeps the earlier log, ends with the reply that decided its outcome, and succeeds only with a details call for that product last; a first attempt that is not refused is the whole fetch; after a refused first attempt comes `authenticate` with the stored credentials, and after a successful one a second attempt from that log, which decides the outcome; a failed `authenticate` ends the fetch |
| Coordinator.FetchPairLast | custom_components/2park/coordinator.py:49-51 | an attempt ends with a read of its product, which belongs to a retry exactly when the attempt starts right after a re-authentication |
| Coordinator.FetchProductOrderly | custom_components/2park/coordinator.py:49-60 | a product's fetch keeps the call discipline, including that a refused first attempt is never the end: it is followed by a re-authentication, and at most one |
| Coordinator.FetchProductPayloads | custom_components/2park/coordinator.py:49-60 | a successful fetch returns the balance and details payloads the client gave to its last two calls, an answered balance call and details call for that product |
| Coordinator.FetchProductReads | custom_components/2park/coordinator.py:47-66 | one product's fetch re-authenticates at most once and reads only that product |
| Coordinator.RefreshFromAuthCount | custom_components/2park/coordinator.py:47-66 | the loop re-authenticates at most once per product |
| Coordinator.RefreshFromReads | custom_components/2park/coordinator.py:47-60 | every balance or details call the loop makes is for one of the products it was given |
| Coordinator.RefreshFrom | custom_components/2park/coordinator.py:43-104 | the loop keeps the earlier log; it ends in `UpdateFailed` exactly when its last reply was a connection error and in `ConfigEntryAuthFailed` exactly when it was an authentication error |
| Coordinator.RefreshCycleSpec | custom_components/2park/coordinator.py:43-104 | a whole cycle follows the call discipline (a refused first attempt always leads to one re-authentication), records the client's replies, ends in each failure kind exactly on the matching last reply, re-authenticates at most once per product, and attempts the products in listing order, each once: its first-attempt balance calls name a prefix of the listing, all of it when the cycle succeeds and at least the failing product when it fails |
| Coordinator.FetchProductFirstReads | custom_components/2park/coordinator.py:49-60 | one product's fetch makes exactly one first-attempt balance call, for that product; the retry's balance call is not a first attempt |
| Coordinator.RefreshFromFirstReads | custom_components/2park/coordinator.py:47-70 | the loop's first-attempt balance calls name the listed products in listing order, a prefix of the listing, the whole listing on success and a non-empty prefix on failure |
| Coordinator.RefusalFollowsReauthentication | custom_components/2park/coordinator.py:52-62 | a disciplined log that ends in a refusal contains a re-authentication with the stored credentials |
| Coordinator.AuthFailedAfterReauthentication | custom_components/2park/coordinator.py:52-62 | a cycle ends in `ConfigEntryAuthFailed` only after it has called `authenticate` with the stored credentials |
| Coordinator.ErrorsEndCycle | custom_components/2park/coordinator.py:61-70 | a connection error, or a refused re-authentication, is the last exchange of the cycle, which then ends in `UpdateFailed` or `ConfigEntryAuthFailed` respectively |
| Coordinator.NoRefusalNoReauthentication | custom_components/2park/coordinator.py:49-66 | if the client never refuses a read, there is no re-authentication and no fatal failure |
| Coordinator.ReauthenticationUnreachable | custom_components/2park/coordinator.py:52-62 | over the client of the API module, no cycle re-authenticates or ends in `ConfigEntryAuthFailed` |
| Coordinator.RefreshFromKeys | custom_components/2park/coordinator.py:84-104 | a successful loop keeps the existing keys in place and appends each new product id once, in listing order |
| Coordinator.RefreshFromLastWins | custom_components/2park/coordinator.py:47-104 | each product id maps to the state normalised from the last product listed with it, out of the payloads the client returned to the last fetch of that id in the log; ids not listed keep their entry |
| Coordinator.FirstEntryStays | custom_components/2park/coordinator.py:84 | when no later product shares the first product's id, its stored state survives the rest of the loop and its fetch is the last read of that id |
| Coordinator.LastEntriesStep | custom_components/2park/coordinator.py:84 | the first product's stored state together with the rest of the loop's entries gives every listed id the state from its last product and last fetch |
| Coordinator.LastWinsStep | custom_components/2park/coordinator.py:47-104 | one fetch-and-store followed by the rest of the loop keeps both the last-entry property and the untouched ids |
| Coordinator.OthersKeptStep | custom_components/2park/coordinator.py:84 | ids that no product lists keep their old entry through the loop's stores |
| Coordinator.RefreshCycleData | custom_components/2park/coordinator.py:43-104 | a successful cycle publishes exactly the listed product ids, each once, in first-listed order, and nothing else; each id maps to the normalised state of the last product with that id, made from the balance and details payloads the client returned to the last fetch of that id in the cycle; and its first-attempt balance calls name exactly the listed products, in listing order |
| Sensor.CountActive | custom_components/2park/sensor.py:146-148 | the count is at most the number of members; it is 0 exactly when no member is active and equals the member count exactly when all are |
| Sensor.CountActiveIsFilterLength | custom_components/2park/sensor.py:146-148 | the count is the number of members with `mbr_active == "YES"` |
| Sensor.ActiveCount | custom_components/2park/sensor.py:142-148 | 0 for an unknown product, never more than its member count, and 0 exactly when none of its members is active |
| Sensor.ActiveCountAfterStore | custom_components/2park/coordinator.py:72-102 | right after a product is stored, its active-parking count is the number of selected raw members whose `mbr_active` is "YES" |
| Sensor.LastValue | custom_components/2park/sensor.py:236-244 | the value of the last parameter with the wanted label; none when no label matches |
| Sensor.ParamAttrs | custom_components/2park/sensor.py:236-244 | TIMESTART, TIMEEND and AMOUNT fill `parking_start`, `parking_end` and `estimated_cost` with the last value of that label; other labels are ignored |
| Sensor.ExtractActionAttrs | custom_components/2park/sensor.py:229-247 | no actions give no attributes; otherwise only the first action is read; `action_id` is present exactly when that action has an `atn_id` key, holding its value |
| Sensor.StartedActionReadsBack | custom_components/2park/sensor.py:229-247 | an action built from the start-action parameters reads back with the start and end times sent, no cost, and the plate and location recoverable |
| Sensor.MembersAttribute | custom_components/2park/sensor.py:150-166 | no attributes for an unknown product; otherwise one entry per member in order, with the plate, the nickname, `active` exactly when `mbr_active == "YES"`, and the action attributes |
| Sensor.MembersAttributeAgreesWithCount | custom_components/2park/sensor.py:142-166 | the number of entries flagged active equals the sensor's count |
| Sensor.FindMember | custom_components/2park/sensor.py:203-205 | the first member with the id; none when no member has it |
| Sensor.GetMember | custom_components/2park/sensor.py:198-205 | the first member of the product with the id; none for an unknown product or a missing id |
| Sensor.MemberStatus | custom_components/2park/sensor.py:207-213 | "parked" exactly when the first member with the id exists and is active, "not_parked" otherwise |
| Sensor.MemberAttributes | custom_components/2park/sensor.py:215-226 | attributes are present exactly when the product lists a member with the id, and then they are the plate, nickname and action attributes of the first such member |
| Sensor.MemberAttributesPresent | custom_components/2park/sensor.py:207-226 | the attributes are present exactly while some member carries the id, and a "parked" member always has them |
| Sensor.BalanceUnit | custom_components/2park/sensor.py:90-96 | "times" exactly for the currency code "TIMES", "EUR" for anything else, a missing code included |
| Sensor.BalanceValue | custom_components/2park/sensor.py:108-112 | the stored balance of the product; none for an unknown product |
| Sensor.InitialKnown | custom_components/2park/sensor.py:43-46 | exactly the product ids of the snapshot are known; the set each one starts with is stated by `Sensor.InitialKnownContents` |
| Sensor.InitialKnownContents | custom_components/2park/sensor.py:43-46 | each product id starts with the set of its members' `mbr_id`s, taken from the last entry with that id as a dict comprehension keeps it |
| Sensor.CheckNewMembers | custom_components/2park/sensor.py:49-63 | known ids only grow; afterwards every current member id is known for its product; no reported member was known before |
| Sensor.NewIds | custom_components/2park/sensor.py:53-63 | one product adds exactly the ids of its members that were not known |
| Sensor.CheckNewMembersKnownExactly | custom_components/2park/sensor.py:49-63 | afterwards an id is known exactly when it was known before or was reported with its product |
| Sensor.CheckNewMembersCovers | custom_components/2park/sensor.py:49-63 | every member whose id was not known for its product is reported |
| Sensor.CheckNewMembersInOrder | custom_components/2park/sensor.py:49-63 | the reported sensors are a subsequence of, product by product in snapshot order, the first member with each id in list order, each tagged with its own product: of a repeated id only the first member can be reported |
| Sensor.CheckNewMembersReportsMembers | custom_components/2park/sensor.py:49-63 | every reported sensor is the first member with its id in the list of the product it is tagged with |
| Sensor.CheckNewMembersReportsOnce | custom_components/2park/sensor.py:49-63 | no (product, member id) pair is reported twice, even when an id repeats within a snapshot |
| Sensor.NothingNewNothingReported | custom_components/2park/sensor.py:49-66 | when every member id is already known, nothing is reported and the known ids do not change |
| Sensor.CheckNewMembersIdempotent | custom_components/2park/sensor.py:49-66 | checking the same snapshot a second time reports nothing and changes nothing |
| Sensor.InitialSnapshotReportsNothing | custom_components/2park/sensor.py:43-63 | the first check, on the snapshot the sensors were created from, reports nothing |
| Select.FormatPlateOption | custom_components/2park/select.py:83-89 | the option starts with the plate and is the bare plate exactly when the nickname is missing or empty; otherwise " (nickname)" follows |
| Select.ExtractPlate | custom_components/2park/select.py:92-94 | the result is a prefix of the option containing no " ("; it is followed by " (" or is the whole option |
| Select.ExtractPlateIdempotent | custom_components/2park/select.py:92-94 | extracting twice gives the same plate as extracting once |
| Select.PlateRoundTrip | custom_components/2park/select.py:83-94 | the plate is recovered from its option whenever it does not contain " (" |
| Select.Options | custom_components/2park/select.py:62-68 | one option per member, in member order, the member's formatted plate; none for an unknown product |
| Select.OptionsNamePlates | custom_components/2park/select.py:62-94 | each option names its member's plate when plates contain no " (" |
| Select.HandleUpdate | custom_components/2park/select.py:75-80 | the selection is cleared exactly when it is set, non-empty and no longer among the options; otherwise it is kept |
| Select.HandleUpdateSettles | custom_components/2park/select.py:75-80 | after an update a non-empty selection is among the options, and a second update changes nothing |
| Select.PickerProducts | custom_components/2park/select.py:23-28 | a product gets a picker exactly when "FLPN" does not occur in its options |
| Select.PickerProductsInOrder | custom_components/2park/select.py:23-28 | the pickers follow the snapshot's product order |

## Left out

- HTTP, sessions, JSON decoding, logging and `close()` are left out. Each call receives what the transport delivered (`Api.Transport`) or is an abstract `Coordinator.Client`.
- Parsing a string as a float (`float(...)` in `_extract_balance`) is an abstract parameter (`Normalizer.FloatParser`), because floating point is out of scope.
- `datetime.now()` as the default start time of `start_action` is a parameter `now`.
- The pattern's `\w` and `\d` are read as ASCII classes, not Unicode ones.
- Home Assistant machinery is left out: entity registration, unique ids, names, icons, device classes and device info. So are `async_select_option`, which only stores the option, the listener registration and the periodic scheduler.
- The sensors created at setup (`async_setup_entry` of sensor.py) are left out. Only the `known_members` built at the same time is modelled (`Sensor.InitialKnown`).
- `number.py`, `button.py`, `__init__.py`, `const.py` and `config_flow.py` are left out. They are wiring, constants and forms around the framework.
- The start and stop services are left out: their time-end expansion and their lookup of the active member live in files that are not part of this model.
- A `pdt_options` of `None` is left out. It can come from `get_categories`, and `"FLPN" in None` would raise. Options are a plain string here.
- An envelope whose `status`, `code` or `data` is JSON null is left out. It would make `.get` raise `AttributeError`. Such a level is either absent or an object here.
- A member without `mbr_id` or `mbr_identifier` is left out. It would raise `KeyError`. Members always carry both here.
- A product without `pdt_id` or `pdt_name` is left out. `product["pdt_id"]` and `product["pdt_name"]` would raise `KeyError` (api.py:83-84, coordinator.py:48 and 88). Products always carry both here.
- A list-valued key that is present with the value JSON null is left out: `ble_parameters`, `pdt_members`, `pdt_identifications`, `idn_members`, `mbr_parameters`, `categories`, `cty_products`, `pdt_parameter_groups`, `pgr_parameters` and an action's `atn_parameters`. `.get(key, [])` then returns `None`, and iterating it raises `TypeError` (coordinator.py:80, 109, 120, 130-131 and 140; api.py:79-80 and 208-209; sensor.py:236, reached from both attribute getters). Such a key is either absent or a list here. A null `mbr_actions` cannot be written here either, but nothing is lost: `_extract_action_attrs` returns no attributes for it, just as for an empty list (coordinator.py:98, sensor.py:231-232).
- Coordinator.RefreshFrom: the cycle normalises balances with the corrected `Normalizer.ExtractBalance` (see Findings). As written, a first `AMOUNT` parameter whose value is JSON null makes `_async_update_data` raise `TypeError` (coordinator.py:85 and 112-113), a third way to end the cycle that the model does not have. `Normalizer.ExtractBalanceAsWritten` and `Normalizer.NullAmountRaises` model that behaviour on its own.
- Normalizer.NormalizeProduct: its `balance` comes from the corrected parser, for the same reason; it is not promised for a null first `AMOUNT`, where the code raises.
- A non-string JSON value (a number, a boolean, an object) in `prr_value`, in an action's `atn_id` or in the envelope's `status.message` is left out. Each is a string, null or absent here. The source passes `atn_id` on as it is (sensor.py:246) and renders the message with an f-string (api.py:170 and 196).
- The product fields `pdt_valid_from`, `pdt_valid_to`, `pdt_is_blocked` and `pdt_member_pool_max_active` that `get_categories` copies are left out. Nothing downstream reads them.
- The messages of `UpdateFailed` and `ConfigEntryAuthFailed` are left out. Only the failure kind is modelled.
- Api.GetCategories: its contract states only the number of products. Their positions and contents are stated by `Api.FlattenCategoriesIndex`.
- Sensor.MembersAttribute: the action attributes are kept as a nested record rather than merged into the member's dict. The keys do not collide, so this does not change the contents. The record also fixes the order of the attributes, where the dict built in `_extract_action_attrs` follows the order of the labels in `atn_parameters`; that order is only cosmetic.

## Findings

| source | as written | input that shows it | evidently intended | confidence | as-written member | corrected member |
|---|---|---|---|---|---|---|
| custom_components/2park/coordinator.py:107-115 | `float(param["prr_value"])` is guarded by `except (ValueError, KeyError)`, and `float(None)` raises `TypeError`, which escapes | a balance payload whose first `AMOUNT` parameter has `"prr_value": null` | a null amount gives `None`, like a missing or unparseable one, so the function never raises and the refresh does not fail | not executed; high | Normalizer.ExtractBalanceAsWritten, Normalizer.NullAmountRaises | Normalizer.ExtractBalance, Normalizer.ExtractBalanceCorrectsNullAmount |

=== FILE: api.dfy ===
/** The 2Park REST client (`api.py`): how each reply envelope is judged and unwrapped, how the
    category listing is flattened into products, how a product's parking location is found,
    and the shape of the start-action request. The HTTP round trip itself is an input: each
    operation receives what the transport delivered. */
module Api {
  import opened Wrappers
  import opened Strings
  import opened Payloads

  /** What one POST produced: the decoded JSON body, or a transport failure
      (`aiohttp.ClientError` or `TimeoutError`). */
  datatype Transport<T> = Received(body: T) | Unreachable

  /** The client's exception classes. */
  datatype ApiError = AuthenticationError | ConnectionError | TwoParkApiError(message: string)

  /** `status.code`, holding `major`. */
  datatype Code = Code(major: Option<string>)

  /** `status`, holding `code` and `message`. */
  datatype Status = Status(code: Option<Code>, message: Field)

  /** The reply envelope `{"status": ..., "data": ...}`; either level may be absent. */
  datatype Envelope<D> = Envelope(status: Option<Status>, data: Option<D>)

  /** `result.get("status", {}).get("code", {}).get("major")`. */
  function Major<D>(env: Envelope<D>): Option<string> {
    match env.status
    case None => None
    case Some(st) =>
      match st.code
      case None => None
      case Some(c) => c.major
  }

  /** `result.get("status", {}).get("message", "Unknown error")`, rendered by the f-string
      (a JSON null renders as "None"). */
  function StatusMessage<D>(env: Envelope<D>): string {
    match env.status
    case None => "Unknown error"
    case Some(st) =>
      match st.message
      case Missing => "Unknown error"
      case Null => "None"
      case Text(m) => m
  }

  // ---------------------------------------------------------------------------------------
  // authenticate

  /** The `data` of a login reply; `authenticate` never reads it. */
  datatype LoginData = LoginData

  /** `authenticate`: succeeds exactly when the envelope's `status.code.major` is "OK". */
  function Authenticate<D>(reply: Transport<Envelope<D>>): (r: Result<bool, ApiError>)
    ensures r.Success? ==> r.value
    ensures r.Success? <==>
      && reply.Received?
      && reply.body.status.Some?
      && reply.body.status.value.code.Some?
      && reply.body.status.value.code.value.major == Some("OK")
    ensures r.Failure? ==> r.error == if reply.Unreachable? then ConnectionError else AuthenticationError
  {
    match reply
    case Unreachable => Failure(ConnectionError)
    case Received(env) =>
      if Major(env) == Some("OK") then Success(true) else Failure(AuthenticationError)
  }

  // ---------------------------------------------------------------------------------------
  // get_balance / get_product_details

  /** The `data` object of a get_balance reply, holding `balance`. */
  datatype BalanceData = BalanceData(balance: Option<Balance>)

  /** `get_balance`: `data.balance`, or `{}` when either level is absent. The status is not
      inspected, so the only failure is a transport failure. */
  function GetBalance(reply: Transport<Envelope<BalanceData>>): (r: Result<Balance, ApiError>)
    ensures r.Failure? <==> reply.Unreachable?
    ensures r.Failure? ==> r.error == ConnectionError
    ensures r.Success? && reply.body.data.Some? && reply.body.data.value.balance.Some? ==>
      r.value == reply.body.data.value.balance.value
    ensures r.Success? && (reply.body.data.None? || reply.body.data.value.balance.None?) ==>
      r.value == EmptyBalance
  {
    match reply
    case Unreachable => Failure(ConnectionError)
    case Received(env) =>
      match env.data
      case None => Success(EmptyBalance)
      case Some(d) => Success(d.balance.GetOr(EmptyBalance))
  }

  /** `get_product_details`: `data`, or `{}` when absent; the status is not inspected. */
  function GetProductDetails(reply: Transport<Envelope<Details>>): (r: Result<Details, ApiError>)
    ensures r.Failure? <==> reply.Unreachable?
    ensures r.Failure? ==> r.error == ConnectionError
    ensures r.Success? ==> r.value == reply.body.data.GetOr(EmptyDetails)
  {
    match reply
    case Unreachable => Failure(ConnectionError)
    case Received(env) => Success(env.data.GetOr(EmptyDetails))
  }

  /** Neither read operation can raise `AuthenticationError`, whatever the status says. */
  lemma ReadsNeverRaiseAuthenticationError(b: Transport<Envelope<BalanceData>>, d: Transport<Envelope<Details>>)
    ensures GetBalance(b) != Failure(AuthenticationError)
    ensures GetProductDetails(d) != Failure(AuthenticationError)
  {
  }

  // ---------------------------------------------------------------------------------------
  // start_action / stop_action

  /** The two commands that share the status check. */
  datatype Command = Start | Stop

  function Verb(c: Command): string {
    match c
    case Start => "start"
    case Stop => "stop"
  }

  /** The `atn_parameters` of the start-action request. `timeStart` defaults to the current
      time `now`, formatted by the caller, because the clock is not part of the model. */
  function StartActionParams(plate: string, timeEnd: string, location: string,
                             timeStart: Option<string>, now: string): (ps: seq<Param>)
    ensures |ps| == 4
    ensures forall i :: 0 <= i < 4 ==> ps[i].name.Some? && ps[i].value.Text?
    ensures ps[0].name == Some("MBR_IDENT") && ps[0].value == Text(plate)
    ensures ps[1].name == Some("TIMESTART") && ps[1].value == Text(timeStart.GetOr(now))
    ensures ps[2].name == Some("TIMEEND") && ps[2].value == Text(timeEnd)
    ensures ps[3].name == Some("LOCATION") && ps[3].value == Text(location)
  {
    var start := if timeStart.None? then now else timeStart.value;
    [ Param(Some("MBR_IDENT"), Text(plate)),
      Param(Some("TIMESTART"), Text(start)),
      Param(Some("TIMEEND"), Text(timeEnd)),
      Param(Some("LOCATION"), Text(location)) ]
  }

  /** The reply handling of `start_action` and `stop_action`: `data` (or `{}`, given as
      `empty`) when the major status is "OK", otherwise `TwoParkApiError` carrying the
      service's message. */
  function ActionReply<D>(cmd: Command, reply: Transport<Envelope<D>>, empty: D): (r: Result<D, ApiError>)
    ensures r.Success? <==> reply.Received? && Major(reply.body) == Some("OK")
    ensures r.Success? ==> r.value == reply.body.data.GetOr(empty)
    ensures reply.Unreachable? ==> r == Failure(ConnectionError)
    ensures reply.Received? && r.Failure? ==>
      r == Failure(TwoParkApiError("Failed to " + Verb(cmd) + " parking: " + StatusMessage(reply.body)))
  {
    match reply
    case Unreachable => Failure(ConnectionError)
    case Received(env) =>
      if Major(env) != Some("OK") then
        Failure(TwoParkApiError("Failed to " + Verb(cmd) + " parking: " + StatusMessage(env)))
      else
        Success(env.data.GetOr(empty))
  }

  /** A rejected command whose envelope has no status, or no message in it, reports
      "Unknown error". */
  lemma MissingMessageIsUnknownError<D>(cmd: Command, env: Envelope<D>, empty: D)
    requires Major(env) != Some("OK")
    requires env.status.None? || env.status.value.message.Missing?
    ensures ActionReply(cmd, Received(env), empty)
         == Failure(TwoParkApiError("Failed to " + Verb(cmd) + " parking: " + "Unknown error"))
  {
  }

  /** The commands and `authenticate` read the status alike: a reply is accepted by one
      exactly when it is accepted by the other, an unreachable service is a
      `ConnectionError` to both, and only a rejection differs -- `AuthenticationError` at
      login, `TwoParkApiError` for a command. */
  lemma ActionReplyAgreesWithAuthenticate<D>(cmd: Command, reply: Transport<Envelope<D>>, empty: D)
    ensures ActionReply(cmd, reply, empty).Success? <==> Authenticate(reply).Success?
    ensures reply.Unreachable? ==>
      ActionReply(cmd, reply, empty).error == Authenticate(reply).error == ConnectionError
    ensures reply.Received? && Authenticate(reply).Failure? ==>
      Authenticate(reply).error == AuthenticationError &&
      ActionReply(cmd, reply, empty).error.TwoParkApiError?
  {
  }

  // ---------------------------------------------------------------------------------------
  // get_categories and _extract_location

  /** One entry of `pdt_parameter_groups`, holding `pgr_parameters`. */
  datatype ParamGroup = ParamGroup(params: seq<Param>)

  /** A product as listed under a category (`cty_products`). */
  datatype RawProduct = RawProduct(pdtId: string, pdtName: string, pdtOptions: string, groups: seq<ParamGroup>)

  /** One entry of `data.categories`. */
  datatype Category = Category(products: seq<RawProduct>)

  /** The `data` object of the get_categories reply, holding `categories`. */
  datatype CategoriesData = CategoriesData(categories: seq<Category>)

  /** A product as the integration stores it after discovery. */
  datatype Product = Product(pdtId: string, pdtName: string, pdtOptions: string, pdtLocation: Option<string>)

  /** A `LOCATION` parameter whose value is truthy. */
  predicate IsLocationParam(p: Param) {
    p.name == Some("LOCATION") && p.value.Truthy()
  }

  ghost predicate FirstLocationAt(params: seq<Param>, i: int) {
    && 0 <= i < |params|
    && IsLocationParam(params[i])
    && forall j :: 0 <= j < i ==> !IsLocationParam(params[j])
  }

  ghost predicate NoLocation(params: seq<Param>) {
    forall i :: 0 <= i < |params| ==> !IsLocationParam(params[i])
  }

  /** The inner loop of `_extract_location`: the first truthy `LOCATION` value of one group. */
  function LocationIn(params: seq<Param>): (r: Option<string>)
    ensures NoLocation(params) ==> r == None
    ensures forall i :: FirstLocationAt(params, i) ==> r == Some(params[i].value.text)
    ensures r.Some? ==> r.value != ""
  {
    if params == [] then None
    else if IsLocationParam(params[0]) then Some(params[0].value.text)
    else
      assert forall i :: FirstLocationAt(params, i) ==> i > 0 && FirstLocationAt(params[1..], i - 1);
      LocationIn(params[1..])
  }

  /** The outer loop of `_extract_location`, group by group. */
  function LocationInGroups(groups: seq<ParamGroup>): (r: Option<string>)
    ensures r.Some? ==> r.value != ""
  {
    if groups == [] then None
    else
      match LocationIn(groups[0].params)
      case Some(v) => Some(v)
      case None => LocationInGroups(groups[1..])
  }

  /** All parameters of all groups, group by group. */
  function GroupParams(groups: seq<ParamGroup>): seq<Param> {
    if groups == [] then [] else groups[0].params + GroupParams(groups[1..])
  }

  lemma {:induction false} LocationInAppend(a: seq<Param>, b: seq<Param>)
    ensures LocationIn(a + b) == if LocationIn(a).Some? then LocationIn(a) else LocationIn(b)
    decreases |a|
  {
    if a != [] {
      assert (a + b)[0] == a[0];
      assert (a + b)[1..] == a[1..] + b;
      LocationInAppend(a[1..], b);
    } else {
      assert a + b == b;
    }
  }

  /** Scanning group by group finds the same value as scanning all parameters in one run. */
  lemma {:induction false} LocationInGroupsIsFirstOverall(groups: seq<ParamGroup>)
    ensures LocationInGroups(groups) == LocationIn(GroupParams(groups))
    decreases |groups|
  {
    if groups != [] {
      LocationInGroupsIsFirstOverall(groups[1..]);
      LocationInAppend(groups[0].params, GroupParams(groups[1..]));
    }
  }

  /** `pdt_id` matches `^(BDA)\w+_(\d+)\$` with `\w+` matching `w` and `(\d+)` matching `d`. */
  ghost predicate MatchesBdaPattern(id: string, w: string, d: string) {
    && |w| > 0 && AllWordChars(w)
    && |d| > 0 && AllDigits(d)
    && "BDA" + w + "_" + d + "$" <= id
  }

  /** The fallback of `_extract_location`: `BDA` followed by the second group of
      `^(BDA)\w+_(\d+)\$`. Because `_` and the digits are word characters and `$` is not, a
      match spans the maximal word run after `BDA`, which must be followed by `$` and whose
      last underscore separates the two groups. */
  function LocationFromId(id: string): (r: Option<string>)
    ensures r.Some? ==> |r.value| > 3 && r.value[..3] == "BDA"
  {
    if |id| < 3 || id[..3] != "BDA" then None
    else
      var e := WordRunEnd(id, 3);
      if e == |id| || id[e] != '$' then None
      else
        match LastIndexIn(id, '_', 3, e)
        case None => None
        case Some(p) =>
          if 3 < p && p + 1 < e && AllDigits(id[p + 1..e]) then Some("BDA" + id[p + 1..e]) else None
  }

  /** Every location derived from an id comes from a match of the pattern. */
  lemma LocationFromIdSound(id: string)
    requires LocationFromId(id).Some?
    ensures exists w, d :: MatchesBdaPattern(id, w, d) && LocationFromId(id) == Some("BDA" + d)
  {
    var e := WordRunEnd(id, 3);
    var p := LastIndexIn(id, '_', 3, e).value;
    var w, d := id[3..p], id[p + 1..e];
    assert AllWordChars(w) by {
      forall k | 0 <= k < |w| ensures IsWordChar(w[k]) {
        assert w[k] == id[3 + k];
      }
    }
    assert "BDA" + w + "_" + d + "$" == id[..e + 1];
    assert MatchesBdaPattern(id, w, d);
  }

  /** Every match of the pattern yields `BDA` followed by its digit group. */
  lemma LocationFromIdComplete(id: string, w: string, d: string)
    requires MatchesBdaPattern(id, w, d)
    ensures LocationFromId(id) == Some("BDA" + d)
  {
    var s := "BDA" + w + "_" + d + "$";
    var p := 3 + |w|;
    var e := p + 1 + |d|;
    assert id[..|s|] == s;
    assert id[..3] == "BDA" by { assert s[..3] == "BDA"; }
    assert forall k :: 3 <= k < p ==> id[k] == s[k] == w[k - 3];
    assert id[p] == s[p] == '_';
    assert forall k :: p < k < e ==> id[k] == s[k] == d[k - p - 1];
    assert id[e] == s[e] == '$';
    assert !IsWordChar(id[e]);
    assert WordRunEnd(id, 3) == e;
    assert LastIndexIn(id, '_', 3, e) == Some(p);
    assert id[p + 1..e] == d;
  }

  /** `_extract_location`: the first truthy `LOCATION` value, else the id-derived fallback. */
  function ExtractLocation(raw: RawProduct): (r: Option<string>)
    ensures r.Some? ==> r.value != ""
  {
    match LocationInGroups(raw.groups)
    case Some(v) => Some(v)
    case None => LocationFromId(raw.pdtId)
  }

  /** The location is the first truthy `LOCATION` value over all groups' parameters in order;
      only when there is none does the product id decide, through the pattern. */
  lemma ExtractLocationSpec(raw: RawProduct)
    ensures forall i :: FirstLocationAt(GroupParams(raw.groups), i) ==>
      ExtractLocation(raw) == Some(GroupParams(raw.groups)[i].value.text)
    ensures NoLocation(GroupParams(raw.groups)) ==>
      (ExtractLocation(raw).Some? <==> exists w, d :: MatchesBdaPattern(raw.pdtId, w, d))
    ensures forall w, d :: NoLocation(GroupParams(raw.groups)) && MatchesBdaPattern(raw.pdtId, w, d) ==>
      ExtractLocation(raw) == Some("BDA" + d)
  {
    LocationInGroupsIsFirstOverall(raw.groups);
    if NoLocation(GroupParams(raw.groups)) {
      if LocationFromId(raw.pdtId).Some? {
        LocationFromIdSound(raw.pdtId);
      }
      forall w, d | MatchesBdaPattern(raw.pdtId, w, d)
        ensures ExtractLocation(raw) == Some("BDA" + d)
      {
        LocationFromIdComplete(raw.pdtId, w, d);
      }
    }
  }

  /** The stored product record built from a listed product. */
  function ToProduct(raw: RawProduct): Product {
    Product(raw.pdtId, raw.pdtName, raw.pdtOptions, ExtractLocation(raw))
  }

  /** Number of products over all categories. */
  function ProductCount(cats: seq<Category>): nat {
    if cats == [] then 0 else |cats[0].products| + ProductCount(cats[1..])
  }

  /** The inner loop of `get_categories`: one category's products, converted in order. */
  function CategoryProducts(cat: Category): (r: seq<Product>)
    ensures |r| == |cat.products|
    ensures forall k :: 0 <= k < |r| ==> r[k] == ToProduct(cat.products[k])
  {
    seq(|cat.products|, k requires 0 <= k < |cat.products| => ToProduct(cat.products[k]))
  }

  /** The nested loop of `get_categories`: products category by category. */
  function FlattenCategories(cats: seq<Category>): (r: seq<Product>)
    ensures |r| == ProductCount(cats)
  {
    if cats == [] then [] else CategoryProducts(cats[0]) + FlattenCategories(cats[1..])
  }

  /** The number of products in the first `c` categories. */
  function Offset(cats: seq<Category>, c: nat): nat
    requires c <= |cats|
  {
    if c == 0 then 0 else |cats[0].products| + Offset(cats[1..], c - 1)
  }

  /** The first category's products open the flattened list. */
  lemma FlattenHead(cats: seq<Category>, j: nat)
    requires cats != [] && j < |cats[0].products|
    ensures FlattenCategories(cats)[j] == ToProduct(cats[0].products[j])
  {
    assert FlattenCategories(cats) == CategoryProducts(cats[0]) + FlattenCategories(cats[1..]);
  }

  /** The later categories' products follow the first category's. */
  lemma FlattenTail(cats: seq<Category>, n: nat)
    requires cats != [] && n < |FlattenCategories(cats[1..])|
    ensures FlattenCategories(cats)[|cats[0].products| + n] == FlattenCategories(cats[1..])[n]
  {
    assert FlattenCategories(cats) == CategoryProducts(cats[0]) + FlattenCategories(cats[1..]);
  }

  /** Product `j` of category `c` lands at position (products of earlier categories) + `j`. */
  lemma {:induction false} FlattenCategoriesIndex(cats: seq<Category>, c: nat, j: nat)
    requires c < |cats| && j < |cats[c].products|
    ensures Offset(cats, c) + j < |FlattenCategories(cats)|
    ensures FlattenCategories(cats)[Offset(cats, c) + j] == ToProduct(cats[c].products[j])
    decreases c
  {
    if c == 0 {
      FlattenHead(cats, j);
    } else {
      FlattenCategoriesIndex(cats[1..], c - 1, j);
      FlattenTail(cats, Offset(cats[1..], c - 1) + j);
      assert cats[1..][c - 1] == cats[c];
    }
  }

  /** `get_categories`: the flattened product list (status not inspected). */
  function GetCategories(reply: Transport<Envelope<CategoriesData>>): (r: Result<seq<Product>, ApiError>)
    ensures r.Failure? <==> reply.Unreachable?
    ensures r.Failure? ==> r.error == ConnectionError
    ensures r.Success? && reply.body.data.None? ==> r.value == []
    ensures r.Success? && reply.body.data.Some? ==>
      |r.value| == ProductCount(reply.body.data.value.categories)
  {
    match reply
    case Unreachable => Failure(ConnectionError)
    case Received(env) =>
      match env.data
      case None => Success([])
      case Some(d) => Success(FlattenCategories(d.categories))
  }
}

=== FILE: coordinator.dfy ===
/** `TwoParkCoordinator._async_update_data`: one refresh cycle over the account's products.
    For each product the balance and then the details are fetched; an authentication error
    triggers one re-authentication with the stored credentials and one retry; a connection
    error, or an authentication error after the retry, ends the cycle. The service is a
    `Client` whose every reply may depend on all exchanges before it, so a session that
    expires part-way through a cycle is within the model. */
module Coordinator {
  import opened Wrappers
  import opened Dicts
  import opened Payloads
  import opened Normalizer
  import Api

  /** How a client call ends: a value, `AuthenticationError` or `ConnectionError`. */
  datatype Outcome<+T> = Ok(value: T) | AuthErr | ConnErr

  /** An outcome without its value. */
  datatype Kind = Answered | Refused | Unreachable

  function KindOf<T>(o: Outcome<T>): Kind {
    match o
    case Ok(_) => Answered
    case AuthErr => Refused
    case ConnErr => Unreachable
  }

  /** The `CONF_EMAIL` and `CONF_PASSWORD` entries of the config entry. */
  datatype Credentials = Credentials(email: string, password: string)

  /** One call the coordinator makes on the client. */
  datatype Call = BalanceCall(pdtId: string) | DetailsCall(pdtId: string) | AuthCall(creds: Credentials)

  /** A call together with the kind of reply it got. */
  datatype Entry = Entry(call: Call, kind: Kind)

  /** The client: each operation answers from the exchanges before it and its arguments. */
  datatype Client = Client(
    balance: (seq<Entry>, string) -> Outcome<Balance>,
    details: (seq<Entry>, string) -> Outcome<Details>,
    authenticate: (seq<Entry>, Credentials) -> Outcome<bool>)

  /** The kind of reply call `x` gets after `history`. */
  function Answer(c: Client, history: seq<Entry>, x: Call): Kind {
    match x
    case BalanceCall(id) => KindOf(c.balance(history, id))
    case DetailsCall(id) => KindOf(c.details(history, id))
    case AuthCall(cr) => KindOf(c.authenticate(history, cr))
  }

  /** Every entry from `lo` on records the reply the client gives to that call after the
      entries before it. */
  ghost predicate Faithful(c: Client, log: seq<Entry>, lo: nat) {
    forall j :: lo <= j < |log| ==> log[j].kind == Answer(c, log[..j], log[j].call)
  }

  lemma FaithfulSnoc(c: Client, log: seq<Entry>, lo: nat, x: Call)
    requires Faithful(c, log, lo)
    ensures Faithful(c, log + [Entry(x, Answer(c, log, x))], lo)
  {
    var log' := log + [Entry(x, Answer(c, log, x))];
    forall j | lo <= j < |log'|
      ensures log'[j].kind == Answer(c, log'[..j], log'[j].call)
    {
      assert log'[..j] == log[..j] || j == |log|;
      if j == |log| {
        assert log'[..j] == log;
      }
    }
  }

  /** A log that extends an extension of `a` extends `a`. */
  lemma PrefixTrans(a: seq<Entry>, b: seq<Entry>, c: seq<Entry>)
    requires |a| <= |b| <= |c| && b[..|a|] == a && c[..|b|] == b
    ensures c[..|a|] == a
  {
    assert c[..|a|] == c[..|b|][..|a|];
  }

  /** The payloads fetched for one product. */
  datatype Fetched = Fetched(balance: Balance, details: Details)

  /** A result together with the log after it. */
  datatype Step<T> = Step(outcome: Outcome<T>, log: seq<Entry>)

  /** `get_balance(pdt_id)` then `get_product_details(pdt_id)`; the second call is made only
      when the first returns, and the pair succeeds only when both return. */
  function FetchPair(c: Client, log: seq<Entry>, id: string): (s: Step<Fetched>)
    ensures |s.log| == |log| + 1 || |s.log| == |log| + 2
    ensures s.log[..|log|] == log
    ensures s.log[|log|] == Entry(BalanceCall(id), Answer(c, log, BalanceCall(id)))
    ensures |s.log| == |log| + 2 <==> s.log[|log|].kind == Answered
    ensures |s.log| == |log| + 2 ==>
      s.log[|log| + 1] == Entry(DetailsCall(id), Answer(c, log + [s.log[|log|]], DetailsCall(id)))
    ensures KindOf(s.outcome) == s.log[|s.log| - 1].kind
    ensures s.outcome.Ok? ==> c.balance(log, id).Ok? && c.details(log + [s.log[|log|]], id).Ok?
    ensures s.outcome.Ok? ==>
      s.outcome.value == Fetched(c.balance(log, id).value, c.details(log + [s.log[|log|]], id).value)
  {
    var b := c.balance(log, id);
    var afterBalance := log + [Entry(BalanceCall(id), KindOf(b))];
    match b
    case AuthErr => Step(AuthErr, afterBalance)
    case ConnErr => Step(ConnErr, afterBalance)
    case Ok(balance) =>
      var d := c.details(afterBalance, id);
      var afterDetails := afterBalance + [Entry(DetailsCall(id), KindOf(d))];
      assert afterDetails[..|log|] == log;
      match d
      case AuthErr => Step(AuthErr, afterDetails)
      case ConnErr => Step(ConnErr, afterDetails)
      case Ok(details) => Step(Ok(Fetched(balance, details)), afterDetails)
  }

  /** The body of the `for product in self.products` loop up to the normalisation: one fetch,
      and on `AuthenticationError` one `authenticate` with the stored credentials followed by
      one more fetch. */
  function FetchProduct(c: Client, creds: Credentials, log: seq<Entry>, id: string): (s: Step<Fetched>)
    ensures |log| < |s.log| <= |log| + 5 && s.log[..|log|] == log
    ensures KindOf(s.outcome) == s.log[|s.log| - 1].kind
    ensures s.outcome.Ok? ==> s.log[|s.log| - 1].call == DetailsCall(id)
    ensures !FetchPair(c, log, id).outcome.AuthErr? ==> s == FetchPair(c, log, id)
    ensures var first := FetchPair(c, log, id);
      first.outcome.AuthErr? ==>
        && |first.log| < |s.log| && s.log[..|first.log|] == first.log
        && s.log[|first.log|] == Entry(AuthCall(creds), Answer(c, first.log, AuthCall(creds)))
        && (c.authenticate(first.log, creds).Ok? ==> s == FetchPair(c, s.log[..|first.log| + 1], id))
        && (!c.authenticate(first.log, creds).Ok? ==> |s.log| == |first.log| + 1)
  {
    var first := FetchPair(c, log, id);
    if first.outcome.AuthErr? then
      var afterAuth := first.log + [Entry(AuthCall(creds), Answer(c, first.log, AuthCall(creds)))];
      match c.authenticate(first.log, creds)
      case Ok(_) =>
        var second := FetchPair(c, afterAuth, id);
        assert afterAuth[..|first.log|] == first.log;
        PrefixTrans(first.log, afterAuth, second.log);
        PrefixTrans(log, first.log, second.log);
        assert second.log[..|first.log| + 1] == afterAuth;
        second
      case AuthErr => Step(AuthErr, afterAuth)
      case ConnErr => Step(ConnErr, afterAuth)
    else
      first
  }

  // ---------------------------------------------------------------------------------------
  // the call-log discipline

  /** The number of re-authentications in a log. */
  function AuthCallCount(log: seq<Entry>): nat {
    if log == [] then 0
    else (if log[0].call.AuthCall? then 1 else 0) + AuthCallCount(log[1..])
  }

  lemma {:induction false} AuthCallCountAppend(a: seq<Entry>, b: seq<Entry>)
    ensures AuthCallCount(a + b) == AuthCallCount(a) + AuthCallCount(b)
    decreases |a|
  {
    if a == [] {
      assert a + b == b;
    } else {
      assert a + b != [] && (a + b)[0] == a[0];
      assert (a + b)[1..] == a[1..] + b;
      AuthCallCountAppend(a[1..], b);
    }
  }

  /** The previous product's fetch completed (or the cycle has just begun at `lo`). */
  ghost predicate Settled(log: seq<Entry>, lo: nat) {
    lo <= |log| && (|log| > lo ==> log[|log| - 1].kind == Answered && !log[|log| - 1].call.AuthCall?)
  }

  /** The read at `j` belongs to the retry that follows a re-authentication: a balance call
      right after it, or the details call after that balance call. */
  ghost predicate Retry(log: seq<Entry>, lo: nat, j: nat)
    requires lo <= j < |log|
  {
    || (log[j].call.BalanceCall? && lo < j && log[j - 1].call.AuthCall?)
    || (log[j].call.DetailsCall? && lo + 1 < j && log[j - 2].call.AuthCall?)
  }

  /** The rule the `j`-th entry of a log obeys, given the entries around it: a details call
      comes right after its product's balance call was answered; a re-authentication uses
      the stored credentials, comes right after a first-attempt read that was refused, and is
      followed only by a new balance call for that same product; and a reply that is not
      answered is either the last one or followed by a re-authentication -- the cycle does
      not go on past an error it does not recover from. */
  ghost predicate Admissible(creds: Credentials, log: seq<Entry>, lo: nat, j: nat)
    requires lo <= j < |log|
  {
    && (log[j].call.DetailsCall? ==>
          lo < j && log[j - 1] == Entry(BalanceCall(log[j].call.pdtId), Answered))
    && (log[j].call.AuthCall? ==>
          && lo < j && log[j].call.creds == creds
          && !log[j - 1].call.AuthCall? && log[j - 1].kind == Refused && !Retry(log, lo, j - 1)
          && (j + 1 < |log| ==> log[j + 1].call == BalanceCall(log[j - 1].call.pdtId)))
    && (j + 1 < |log| ==> log[j].kind == Answered || log[j + 1].call == AuthCall(creds))
  }

  /** Every entry from `lo` on is admissible. */
  ghost predicate Disciplined(creds: Credentials, log: seq<Entry>, lo: nat) {
    lo <= |log| && forall j :: lo <= j < |log| ==> Admissible(creds, log, lo, j)
  }

  /** The log does not stop at a refused first attempt: a refused read that ends it belongs
      to the retry after a re-authentication. */
  ghost predicate Concluded(log: seq<Entry>, lo: nat)
    requires lo <= |log|
  {
    (|log| > lo && !log[|log| - 1].call.AuthCall? && log[|log| - 1].kind == Refused) ==>
      Retry(log, lo, |log| - 1)
  }

  /** The call discipline of a finished stretch of the cycle: every entry admissible, and an
      authentication error on a first attempt always answered by re-authenticating. */
  ghost predicate Orderly(creds: Credentials, log: seq<Entry>, lo: nat) {
    Disciplined(creds, log, lo) && Concluded(log, lo)
  }

  /** Appending one entry that obeys the discipline keeps the log disciplined. */
  lemma DisciplinedSnoc(creds: Credentials, log: seq<Entry>, lo: nat, e: Entry)
    requires Disciplined(creds, log, lo)
    requires |log| > lo ==> log[|log| - 1].kind == Answered || e.call == AuthCall(creds)
    requires e.call.DetailsCall? ==>
      |log| > lo && log[|log| - 1] == Entry(BalanceCall(e.call.pdtId), Answered)
    requires e.call.AuthCall? ==>
      && |log| > lo && e.call.creds == creds && !log[|log| - 1].call.AuthCall?
      && log[|log| - 1].kind == Refused && !Retry(log, lo, |log| - 1)
    requires |log| > lo && log[|log| - 1].call.AuthCall? ==>
      |log| >= 2 && !log[|log| - 2].call.AuthCall? && e.call == BalanceCall(log[|log| - 2].call.pdtId)
    ensures Disciplined(creds, log + [e], lo)
  {
    var log' := log + [e];
    forall j | lo <= j < |log'|
      ensures Admissible(creds, log', lo, j)
    {
      if j < |log| {
        assert Admissible(creds, log, lo, j);
        if j > lo && log[j].call.AuthCall? {
          assert Retry(log', lo, j - 1) == Retry(log, lo, j - 1);
        }
      } else if e.call.AuthCall? {
        assert Retry(log', lo, j - 1) == Retry(log, lo, j - 1);
      }
    }
  }

  /** Facts about one fetch, stated on the entries it adds: all about product `id`, with no
      re-authentication among them, and faithful to the client. */
  lemma FetchPairFacts(c: Client, creds: Credentials, log: seq<Entry>, lo: nat, id: string)
    requires lo <= |log|
    ensures var s := FetchPair(c, log, id);
      && (forall j :: |log| <= j < |s.log| ==> !s.log[j].call.AuthCall? && s.log[j].call.pdtId == id)
      && AuthCallCount(s.log) == AuthCallCount(log)
      && (Faithful(c, log, lo) ==> Faithful(c, s.log, lo))
  {
    var s := FetchPair(c, log, id);
    var afterBalance := log + [s.log[|log|]];
    if Faithful(c, log, lo) {
      FaithfulSnoc(c, log, lo, BalanceCall(id));
    }
    AuthCallCountAppend(log, [s.log[|log|]]);
    if |s.log| == |log| + 2 {
      assert s.log == afterBalance + [s.log[|log| + 1]];
      if Faithful(c, afterBalance, lo) {
        FaithfulSnoc(c, afterBalance, lo, DetailsCall(id));
      }
      AuthCallCountAppend(afterBalance, [s.log[|log| + 1]]);
    } else {
      assert s.log == afterBalance;
    }
  }

  /** One fetch keeps the log disciplined, provided it starts on a settled log or right after
      a successful re-authentication for the same product. */
  lemma FetchPairDisciplined(creds: Credentials, c: Client, log: seq<Entry>, lo: nat, id: string)
    requires Disciplined(creds, log, lo)
    requires |log| > lo ==> log[|log| - 1].kind == Answered
    requires |log| > lo && log[|log| - 1].call.AuthCall? ==>
      |log| >= 2 && !log[|log| - 2].call.AuthCall? && log[|log| - 2].call.pdtId == id
    ensures Disciplined(creds, FetchPair(c, log, id).log, lo)
  {
    var s := FetchPair(c, log, id);
    var afterBalance := log + [s.log[|log|]];
    DisciplinedSnoc(creds, log, lo, s.log[|log|]);
    if |s.log| == |log| + 2 {
      assert s.log == afterBalance + [s.log[|log| + 1]];
      DisciplinedSnoc(creds, afterBalance, lo, s.log[|log| + 1]);
    } else {
      assert s.log == afterBalance;
    }
  }

  /** The last call of a fetch is a read of product `id`, and it belongs to a retry exactly
      when the fetch starts right after a re-authentication. */
  lemma FetchPairLast(c: Client, log: seq<Entry>, lo: nat, id: string)
    requires lo <= |log|
    ensures var s := FetchPair(c, log, id);
      && !s.log[|s.log| - 1].call.AuthCall? && s.log[|s.log| - 1].call.pdtId == id
      && (Retry(s.log, lo, |s.log| - 1) <==> |log| > lo && log[|log| - 1].call.AuthCall?)
  {
    var s := FetchPair(c, log, id);
    if |log| > 0 {
      assert s.log[|log| - 1] == log[|log| - 1];
    }
  }

  /** A re-authentication right after a refused first-attempt read of `id`, and the fetch of
      `id` that follows a successful one, keep the log disciplined; a refusal in that second
      fetch belongs to the retry. */
  lemma ReauthDisciplined(creds: Credentials, c: Client, log: seq<Entry>, lo: nat, id: string)
    requires Disciplined(creds, log, lo) && |log| > lo
    requires log[|log| - 1].kind == Refused && !Retry(log, lo, |log| - 1)
    requires !log[|log| - 1].call.AuthCall? && log[|log| - 1].call.pdtId == id
    ensures var afterAuth := log + [Entry(AuthCall(creds), Answer(c, log, AuthCall(creds)))];
      && Disciplined(creds, afterAuth, lo)
      && (c.authenticate(log, creds).Ok? ==>
            Disciplined(creds, FetchPair(c, afterAuth, id).log, lo) &&
            Retry(FetchPair(c, afterAuth, id).log, lo, |FetchPair(c, afterAuth, id).log| - 1))
  {
    var a := Entry(AuthCall(creds), Answer(c, log, AuthCall(creds)));
    DisciplinedSnoc(creds, log, lo, a);
    if c.authenticate(log, creds).Ok? {
      var afterAuth := log + [a];
      assert afterAuth[|afterAuth| - 2] == log[|log| - 1];
      FetchPairDisciplined(creds, c, afterAuth, lo, id);
      FetchPairLast(c, afterAuth, lo, id);
    }
  }

  /** One product's fetch, with its possible re-authentication, keeps the log orderly: a
      refused first attempt is followed by a re-authentication, and the cycle stops at an
      authentication error only after it. */
  lemma FetchProductOrderly(c: Client, creds: Credentials, log: seq<Entry>, lo: nat, id: string)
    requires Orderly(creds, log, lo) && Settled(log, lo)
    ensures Orderly(creds, FetchProduct(c, creds, log, id).log, lo)
  {
    var first := FetchPair(c, log, id);
    FetchPairDisciplined(creds, c, log, lo, id);
    FetchPairLast(c, log, lo, id);
    if first.outcome.AuthErr? {
      ReauthDisciplined(creds, c, first.log, lo, id);
      var afterAuth := first.log + [Entry(AuthCall(creds), Answer(c, first.log, AuthCall(creds)))];
      var s := FetchProduct(c, creds, log, id);
      if c.authenticate(first.log, creds).Ok? {
        assert s.log[..|first.log| + 1] == afterAuth;
      } else {
        assert s.log == afterAuth;
      }
    }
  }

  /** One product's fetch records the client's replies. */
  lemma FetchProductFaithful(c: Client, creds: Credentials, log: seq<Entry>, lo: nat, id: string)
    requires lo <= |log| && Faithful(c, log, lo)
    ensures Faithful(c, FetchProduct(c, creds, log, id).log, lo)
  {
    var first := FetchPair(c, log, id);
    FetchPairFacts(c, creds, log, lo, id);
    if first.outcome.AuthErr? {
      FaithfulSnoc(c, first.log, lo, AuthCall(creds));
      if c.authenticate(first.log, creds).Ok? {
        var afterAuth := first.log + [Entry(AuthCall(creds), Answer(c, first.log, AuthCall(creds)))];
        FetchPairFacts(c, creds, afterAuth, lo, id);
      }
    }
  }

  /** One product's fetch adds at most one re-authentication and reads only product `id`. */
  lemma FetchProductReads(c: Client, creds: Credentials, log: seq<Entry>, id: string)
    ensures var s := FetchProduct(c, creds, log, id);
      && AuthCallCount(s.log) <= AuthCallCount(log) + 1
      && (forall j :: |log| <= j < |s.log| && !s.log[j].call.AuthCall? ==> s.log[j].call.pdtId == id)
  {
    FetchProductCount(c, creds, log, id);
    FetchProductReadsId(c, creds, log, id);
  }

  lemma FetchProductCount(c: Client, creds: Credentials, log: seq<Entry>, id: string)
    ensures AuthCallCount(FetchProduct(c, creds, log, id).log) <= AuthCallCount(log) + 1
  {
    var first := FetchPair(c, log, id);
    FetchPairFacts(c, creds, log, 0, id);
    if first.outcome.AuthErr? {
      var a := Entry(AuthCall(creds), Answer(c, first.log, AuthCall(creds)));
      var afterAuth := first.log + [a];
      AuthCallCountAppend(first.log, [a]);
      if c.authenticate(first.log, creds).Ok? {
        FetchPairFacts(c, creds, afterAuth, 0, id);
      }
    }
  }

  lemma FetchProductReadsId(c: Client, creds: Credentials, log: seq<Entry>, id: string)
    ensures var s := FetchProduct(c, creds, log, id);
      forall j :: |log| <= j < |s.log| && !s.log[j].call.AuthCall? ==> s.log[j].call.pdtId == id
  {
    var first := FetchPair(c, log, id);
    FetchPairFacts(c, creds, log, 0, id);
    if first.outcome.AuthErr? {
      var a := Entry(AuthCall(creds), Answer(c, first.log, AuthCall(creds)));
      var afterAuth := first.log + [a];
      assert forall j :: 0 <= j < |first.log| ==> afterAuth[j] == first.log[j];
      if c.authenticate(first.log, creds).Ok? {
        var second := FetchPair(c, afterAuth, id);
        FetchPairFacts(c, creds, afterAuth, 0, id);
        assert forall j :: 0 <= j < |afterAuth| ==> second.log[j] == afterAuth[j] by {
          assert second.log[..|afterAuth|] == afterAuth;
        }
      }
    }
  }

  // ---------------------------------------------------------------------------------------
  // the refresh cycle

  /** What `_async_update_data` ends with: the new data, `UpdateFailed`, or
      `ConfigEntryAuthFailed`. */
  datatype Refresh = Refreshed(data: Snapshot) | UpdateFailed | AuthFailed

  /** A finished cycle: its result and the log of calls after it. */
  datatype Cycle = Cycle(result: Refresh, log: seq<Entry>)

  /** The log has grown past `lo` and its last reply was of kind `k`. */
  predicate EndsWith(log: seq<Entry>, lo: nat, k: Kind) {
    |log| > lo && log[|log| - 1].kind == k
  }

  /** The product ids in order. */
  function Ids(products: seq<Api.Product>): (ids: seq<string>)
    ensures |ids| == |products|
    ensures forall i :: 0 <= i < |products| ==> ids[i] == products[i].pdtId
  {
    if products == [] then [] else [products[0].pdtId] + Ids(products[1..])
  }

  /** The loop from the current product on, with the `data` built so far. */
  function RefreshFrom(c: Client, creds: Credentials, parse: FloatParser,
                       products: seq<Api.Product>, data: Snapshot, log: seq<Entry>): (r: Cycle)
    ensures |log| <= |r.log| && r.log[..|log|] == log
    ensures r.result.UpdateFailed? <==> EndsWith(r.log, |log|, Unreachable)
    ensures r.result.AuthFailed? <==> EndsWith(r.log, |log|, Refused)
    decreases |products|
  {
    if products == [] then Cycle(Refreshed(data), log)
    else
      var p := products[0];
      var s := FetchProduct(c, creds, log, p.pdtId);
      match s.outcome
      case Ok(f) =>
        var r := RefreshFrom(c, creds, parse, products[1..],
                             Put(data, p.pdtId, NormalizeProduct(p, f.balance, f.details, parse)), s.log);
        PrefixTrans(log, s.log, r.log);
        assert r.log[|s.log| - 1] == s.log[|s.log| - 1];
        r
      case AuthErr => Cycle(AuthFailed, s.log)
      case ConnErr => Cycle(UpdateFailed, s.log)
  }

  /** One run of `_async_update_data`, starting with empty data after `history`. */
  function RefreshCycle(c: Client, creds: Credentials, parse: FloatParser,
                        products: seq<Api.Product>, history: seq<Entry>): Cycle {
    RefreshFrom(c, creds, parse, products, [], history)
  }

  /** A successful fetch leaves the log settled. */
  lemma FetchProductSettles(c: Client, creds: Credentials, log: seq<Entry>, lo: nat, id: string)
    requires lo <= |log|
    ensures FetchProduct(c, creds, log, id).outcome.Ok? ==> Settled(FetchProduct(c, creds, log, id).log, lo)
  {
  }

  /** The loop keeps the log orderly. */
  lemma {:induction false} RefreshFromOrderly(c: Client, creds: Credentials, parse: FloatParser,
                                              products: seq<Api.Product>, data: Snapshot, log: seq<Entry>, lo: nat)
    requires Orderly(creds, log, lo) && Settled(log, lo)
    ensures Orderly(creds, RefreshFrom(c, creds, parse, products, data, log).log, lo)
    decreases |products|
  {
    if products != [] {
      var p := products[0];
      var s := FetchProduct(c, creds, log, p.pdtId);
      FetchProductOrderly(c, creds, log, lo, p.pdtId);
      FetchProductSettles(c, creds, log, lo, p.pdtId);
      match s.outcome
      case Ok(f) =>
        RefreshFromOrderly(c, creds, parse, products[1..],
          Put(data, p.pdtId, NormalizeProduct(p, f.balance, f.details, parse)), s.log, lo);
      case AuthErr =>
      case ConnErr =>
    }
  }

  /** The loop records the client's replies. */
  lemma {:induction false} RefreshFromFaithful(c: Client, creds: Credentials, parse: FloatParser,
                                               products: seq<Api.Product>, data: Snapshot, log: seq<Entry>, lo: nat)
    requires lo <= |log| && Faithful(c, log, lo)
    ensures Faithful(c, RefreshFrom(c, creds, parse, products, data, log).log, lo)
    decreases |products|
  {
    if products != [] {
      var p := products[0];
      var s := FetchProduct(c, creds, log, p.pdtId);
      FetchProductFaithful(c, creds, log, lo, p.pdtId);
      if s.outcome.Ok? {
        var f := s.outcome.value;
        RefreshFromFaithful(c, creds, parse, products[1..],
          Put(data, p.pdtId, NormalizeProduct(p, f.balance, f.details, parse)), s.log, lo);
      }
    }
  }

  /** The loop re-authenticates at most once per product. */
  lemma {:induction false} RefreshFromAuthCount(c: Client, creds: Credentials, parse: FloatParser,
                                                products: seq<Api.Product>, data: Snapshot, log: seq<Entry>)
    ensures AuthCallCount(RefreshFrom(c, creds, parse, products, data, log).log) <= AuthCallCount(log) + |products|
    decreases |products|
  {
    if products != [] {
      var p := products[0];
      var s := FetchProduct(c, creds, log, p.pdtId);
      FetchProductCount(c, creds, log, p.pdtId);
      match s.outcome
      case Ok(f) =>
        RefreshFromAuthCount(c, creds, parse, products[1..],
          Put(data, p.pdtId, NormalizeProduct(p, f.balance, f.details, parse)), s.log);
      case AuthErr =>
      case ConnErr =>
    }
  }

  /** Every read in `log` from position `lo` on is of one of the products `ids`. */
  ghost predicate ReadsOnly(log: seq<Entry>, lo: nat, ids: seq<string>) {
    forall j :: lo <= j < |log| && !log[j].call.AuthCall? ==> log[j].call.pdtId in ids
  }

  /** Reads of `id` followed by reads of `ids` are reads of `[id] + ids`. */
  lemma ReadsOnlyJoin(log: seq<Entry>, s: seq<Entry>, r: seq<Entry>, id: string, ids: seq<string>)
    requires |log| <= |s| <= |r| && r[..|s|] == s
    requires forall j :: |log| <= j < |s| && !s[j].call.AuthCall? ==> s[j].call.pdtId == id
    requires ReadsOnly(r, |s|, ids)
    ensures ReadsOnly(r, |log|, [id] + ids)
  {
    forall j | |log| <= j < |r| && !r[j].call.AuthCall?
      ensures r[j].call.pdtId in [id] + ids
    {
      if j < |s| {
        assert r[j] == r[..|s|][j];
      }
    }
  }

  /** The loop reads only the listed products. */
  lemma {:induction false} RefreshFromReads(c: Client, creds: Credentials, parse: FloatParser,
                                            products: seq<Api.Product>, data: Snapshot, log: seq<Entry>)
    ensures ReadsOnly(RefreshFrom(c, creds, parse, products, data, log).log, |log|, Ids(products))
    decreases |products|
  {
    if products != [] {
      var p := products[0];
      var s := FetchProduct(c, creds, log, p.pdtId);
      FetchProductReadsId(c, creds, log, p.pdtId);
      assert Ids(products) == [p.pdtId] + Ids(products[1..]);
      match s.outcome
      case Ok(f) =>
        var data' := Put(data, p.pdtId, NormalizeProduct(p, f.balance, f.details, parse));
        RefreshFromReads(c, creds, parse, products[1..], data', s.log);
        var r := RefreshFrom(c, creds, parse, products[1..], data', s.log);
        ReadsOnlyJoin(log, s.log, r.log, p.pdtId, Ids(products[1..]));
      case AuthErr =>
      case ConnErr =>
    }
  }

  /** The products of the first-attempt balance calls from entry `lo` on, in order: every
      balance call except the retry right after a re-authentication. `afterAuth` says whether
      the entry before `lo` was a re-authentication. */
  function FirstReads(log: seq<Entry>, lo: nat, afterAuth: bool): seq<string>
    decreases |log| - lo
  {
    if lo >= |log| then []
    else
      (if log[lo].call.BalanceCall? && !afterAuth then [log[lo].call.pdtId] else [])
      + FirstReads(log, lo + 1, log[lo].call.AuthCall?)
  }

  /** Whether the last entry before `hi` (from `lo` on) is a re-authentication. */
  function AuthBefore(log: seq<Entry>, lo: nat, hi: nat, afterAuth: bool): bool
    requires hi <= |log|
  {
    if lo < hi then log[hi - 1].call.AuthCall? else afterAuth
  }

  /** The first reads of an extended log split where the shorter log ends. */
  lemma {:induction false} FirstReadsSplit(log: seq<Entry>, log': seq<Entry>, lo: nat, afterAuth: bool)
    requires lo <= |log| <= |log'| && log'[..|log|] == log
    ensures FirstReads(log', lo, afterAuth)
         == FirstReads(log, lo, afterAuth) + FirstReads(log', |log|, AuthBefore(log, lo, |log|, afterAuth))
    decreases |log| - lo
  {
    if lo < |log| {
      assert log'[lo] == log[lo];
      FirstReadsSplit(log, log', lo + 1, log[lo].call.AuthCall?);
      if lo + 1 < |log| {
        assert AuthBefore(log, lo + 1, |log|, log[lo].call.AuthCall?) == AuthBefore(log, lo, |log|, afterAuth);
      }
    }
  }

  /** One attempt makes one first read of its product, or none when it is the retry. */
  lemma FetchPairFirstReads(c: Client, log: seq<Entry>, id: string, afterAuth: bool)
    ensures var s := FetchPair(c, log, id);
      && FirstReads(s.log, |log|, afterAuth) == (if afterAuth then [] else [id])
      && !s.log[|s.log| - 1].call.AuthCall?
  {
    var s := FetchPair(c, log, id);
    assert FirstReads(s.log, |log| + 1, false) == [] by {
      if |s.log| == |log| + 2 {
        assert FirstReads(s.log, |log| + 2, false) == [];
      }
    }
  }

  /** One product's fetch, with its possible retry, makes exactly one first read: of that
      product. */
  lemma FetchProductFirstReads(c: Client, creds: Credentials, log: seq<Entry>, id: string)
    ensures var s := FetchProduct(c, creds, log, id);
      && FirstReads(s.log, |log|, false) == [id]
      && (s.outcome.Ok? ==> !s.log[|s.log| - 1].call.AuthCall?)
  {
    var first := FetchPair(c, log, id);
    var s := FetchProduct(c, creds, log, id);
    FetchPairFirstReads(c, log, id, false);
    if first.outcome.AuthErr? {
      var n := |first.log|;
      FirstReadsSplit(first.log, s.log, |log|, false);
      assert AuthBefore(first.log, |log|, n, false) == false;
      assert s.log[n].call.AuthCall?;
      if c.authenticate(first.log, creds).Ok? {
        FetchPairFirstReads(c, s.log[..n + 1], id, true);
      } else {
        assert FirstReads(s.log, n + 1, true) == [];
      }
      assert FirstReads(s.log, n, false) == FirstReads(s.log, n + 1, true);
    }
  }

  /** A product's first read followed by the rest of the loop's: the listing prefix grows
      by that product. */
  lemma FirstReadsStep(log: seq<Entry>, sLog: seq<Entry>, rLog: seq<Entry>, id: string, ids: seq<string>)
    requires |log| < |sLog| <= |rLog| && rLog[..|sLog|] == sLog
    requires FirstReads(sLog, |log|, false) == [id] && !sLog[|sLog| - 1].call.AuthCall?
    requires |FirstReads(rLog, |sLog|, false)| <= |ids|
    requires FirstReads(rLog, |sLog|, false) == ids[..|FirstReads(rLog, |sLog|, false)|]
    ensures FirstReads(rLog, |log|, false) == [id] + FirstReads(rLog, |sLog|, false)
    ensures FirstReads(rLog, |log|, false) == ([id] + ids)[..|FirstReads(rLog, |log|, false)|]
  {
    FirstReadsSplit(sLog, rLog, |log|, false);
    assert AuthBefore(sLog, |log|, |sLog|, false) == false;
    ListingPrefixCons(id, ids, FirstReads(rLog, |sLog|, false));
  }

  /** A prefix of a listing, preceded by one more id, is a prefix of the longer listing. */
  lemma ListingPrefixHead(id: string, ids: seq<string>)
    ensures [id] == ([id] + ids)[..1]
  { }

  lemma ListingPrefixCons(id: string, ids: seq<string>, rest: seq<string>)
    requires |rest| <= |ids| && rest == ids[..|rest|]
    ensures [id] + rest == ([id] + ids)[..1 + |rest|]
  {
  }

  /** The loop walks the products in listing order, each attempted once: its first reads are
      the first ids of the listing, all of them when it succeeds, at least one when it
      fails. */
  lemma {:induction false} RefreshFromFirstReads(c: Client, creds: Credentials, parse: FloatParser,
                                                 products: seq<Api.Product>, data: Snapshot, log: seq<Entry>)
    ensures var r := RefreshFrom(c, creds, parse, products, data, log);
      var fr := FirstReads(r.log, |log|, false);
      && |fr| <= |products| && fr == Ids(products)[..|fr|]
      && (r.result.Refreshed? ==> |fr| == |products|)
      && (!r.result.Refreshed? ==> 0 < |fr|)
    decreases |products|
  {
    if products != [] {
      var p := products[0];
      var s := FetchProduct(c, creds, log, p.pdtId);
      FetchProductFirstReads(c, creds, log, p.pdtId);
      assert Ids(products) == [p.pdtId] + Ids(products[1..]);
      match s.outcome
      case Ok(f) =>
        var data' := Put(data, p.pdtId, NormalizeProduct(p, f.balance, f.details, parse));
        RefreshFromFirstReads(c, creds, parse, products[1..], data', s.log);
        var r := RefreshFrom(c, creds, parse, products[1..], data', s.log);
        FirstReadsStep(log, s.log, r.log, p.pdtId, Ids(products[1..]));
      case AuthErr =>
        ListingPrefixHead(p.pdtId, Ids(products[1..]));
      case ConnErr =>
        ListingPrefixHead(p.pdtId, Ids(products[1..]));
    }
  }

  /** A whole cycle, on the log from `history` on: the calls follow the discipline of
      `Orderly` and record the client's replies; the result is `UpdateFailed` exactly when
      the last reply was a connection error and `ConfigEntryAuthFailed` exactly when it was an
      authentication error (which, by `Concluded`, is never a first attempt's refusal);
      re-authentication happens at most once per product; and the products are attempted in
      listing order, each once, up to the one that failed or to the end. */
  lemma RefreshCycleSpec(c: Client, creds: Credentials, parse: FloatParser,
                         products: seq<Api.Product>, history: seq<Entry>)
    ensures var r := RefreshCycle(c, creds, parse, products, history);
      && r.log[..|history|] == history
      && Orderly(creds, r.log, |history|)
      && Faithful(c, r.log, |history|)
      && (r.result.UpdateFailed? <==> EndsWith(r.log, |history|, Unreachable))
      && (r.result.AuthFailed? <==> EndsWith(r.log, |history|, Refused))
      && AuthCallCount(r.log) <= AuthCallCount(history) + |products|
      && var fr := FirstReads(r.log, |history|, false);
         && |fr| <= |products| && fr == Ids(products)[..|fr|]
         && (r.result.Refreshed? ==> fr == Ids(products))
         && (!r.result.Refreshed? ==> 0 < |fr|)
  {
    RefreshFromOrderly(c, creds, parse, products, [], history, |history|);
    RefreshFromFaithful(c, creds, parse, products, [], history, |history|);
    RefreshFromAuthCount(c, creds, parse, products, [], history);
    RefreshFromFirstReads(c, creds, parse, products, [], history);
  }

  /** In an orderly log, a connection error or a refused re-authentication is the last entry. */
  lemma OrderlyErrorIsLast(creds: Credentials, log: seq<Entry>, lo: nat, j: nat)
    requires Orderly(creds, log, lo) && lo <= j < |log|
    requires log[j].kind == Unreachable || (log[j].call.AuthCall? && log[j].kind == Refused)
    ensures j == |log| - 1
  {
    assert Admissible(creds, log, lo, j);
    assert j + 1 < |log| ==> Admissible(creds, log, lo, j + 1);
  }

  /** How a cycle's result follows from its log, stated on any cycle whose log is orderly
      from `lo` and whose failure kinds match its last reply. */
  lemma ErrorsEnd(creds: Credentials, r: Cycle, lo: nat)
    requires Orderly(creds, r.log, lo)
    requires r.result.UpdateFailed? <==> EndsWith(r.log, lo, Unreachable)
    requires r.result.AuthFailed? <==> EndsWith(r.log, lo, Refused)
    ensures forall j :: lo <= j < |r.log| ==>
      && (r.log[j].kind == Unreachable ==> j == |r.log| - 1 && r.result.UpdateFailed?)
      && (r.log[j].call.AuthCall? && r.log[j].kind == Refused ==> j == |r.log| - 1 && r.result.AuthFailed?)
  {
    forall j: nat | lo <= j < |r.log| &&
        (r.log[j].kind == Unreachable || (r.log[j].call.AuthCall? && r.log[j].kind == Refused))
      ensures j == |r.log| - 1
    {
      OrderlyErrorIsLast(creds, r.log, lo, j);
    }
  }

  /** A connection error, or a refused re-authentication, is the last exchange of the cycle:
      nothing is fetched after it and no data is published. */
  lemma ErrorsEndCycle(c: Client, creds: Credentials, parse: FloatParser,
                       products: seq<Api.Product>, history: seq<Entry>)
    ensures var r := RefreshCycle(c, creds, parse, products, history);
      forall j :: |history| <= j < |r.log| ==>
        && (r.log[j].kind == Unreachable ==> j == |r.log| - 1 && r.result.UpdateFailed?)
        && (r.log[j].call.AuthCall? && r.log[j].kind == Refused ==> j == |r.log| - 1 && r.result.AuthFailed?)
  {
    RefreshCycleSpec(c, creds, parse, products, history);
    ErrorsEnd(creds, RefreshCycle(c, creds, parse, products, history), |history|);
  }

  /** An orderly log that ends in a refusal holds a re-authentication with the stored
      credentials, at most two entries before its end. */
  lemma RefusalFollowsReauthentication(creds: Credentials, log: seq<Entry>, lo: nat)
    requires Orderly(creds, log, lo) && EndsWith(log, lo, Refused)
    ensures exists j :: lo <= j < |log| && log[j].call == AuthCall(creds)
  {
    var n := |log| - 1;
    var j := n;
    if !log[n].call.AuthCall? {
      j := if log[n].call.BalanceCall? then n - 1 else n - 2;
    }
    assert Admissible(creds, log, lo, j);
  }

  /** A cycle reports `ConfigEntryAuthFailed` only after it has tried to re-authenticate:
      a refused read alone never ends the cycle. */
  lemma AuthFailedAfterReauthentication(c: Client, creds: Credentials, parse: FloatParser,
                                        products: seq<Api.Product>, history: seq<Entry>)
    ensures var r := RefreshCycle(c, creds, parse, products, history);
      r.result.AuthFailed? ==> exists j :: |history| <= j < |r.log| && r.log[j].call == AuthCall(creds)
  {
    var r := RefreshCycle(c, creds, parse, products, history);
    RefreshCycleSpec(c, creds, parse, products, history);
    if r.result.AuthFailed? {
      RefusalFollowsReauthentication(creds, r.log, |history|);
    }
  }

  /** In a faithful log over a client that never refuses a read, no read is refused. */
  lemma FaithfulNoRefusedRead(c: Client, log: seq<Entry>, lo: nat)
    requires Faithful(c, log, lo)
    requires forall h, id :: !c.balance(h, id).AuthErr? && !c.details(h, id).AuthErr?
    ensures forall j :: lo <= j < |log| && !log[j].call.AuthCall? ==> log[j].kind != Refused
  {
    forall j | lo <= j < |log| && !log[j].call.AuthCall?
      ensures log[j].kind != Refused
    {
      assert log[j].kind == Answer(c, log[..j], log[j].call);
    }
  }

  /** In an orderly log without refused reads, there is no re-authentication. */
  lemma OrderlyNoRefusedReadNoAuth(creds: Credentials, log: seq<Entry>, lo: nat)
    requires Orderly(creds, log, lo)
    requires forall j :: lo <= j < |log| && !log[j].call.AuthCall? ==> log[j].kind != Refused
    ensures forall j :: lo <= j < |log| ==> !log[j].call.AuthCall?
  {
    forall j | lo <= j < |log|
      ensures !log[j].call.AuthCall?
    {
      assert Admissible(creds, log, lo, j);
    }
  }

  /** If the client never refuses a read, the coordinator never re-authenticates and never
      reports an authentication failure. */
  lemma NoRefusalNoReauthentication(c: Client, creds: Credentials, parse: FloatParser,
                                    products: seq<Api.Product>, history: seq<Entry>)
    requires forall h, id :: !c.balance(h, id).AuthErr? && !c.details(h, id).AuthErr?
    ensures var r := RefreshCycle(c, creds, parse, products, history);
      (forall j :: |history| <= j < |r.log| ==> !r.log[j].call.AuthCall?) && !r.result.AuthFailed?
  {
    var r := RefreshCycle(c, creds, parse, products, history);
    RefreshCycleSpec(c, creds, parse, products, history);
    FaithfulNoRefusedRead(c, r.log, |history|);
    OrderlyNoRefusedReadNoAuth(creds, r.log, |history|);
  }

  // ---------------------------------------------------------------------------------------
  // the data a successful cycle publishes

  /** `keys` followed by the members of `ids` not yet among them, each once, in the order they
      are first met: the key order of a dict after `d[id] = ...` for each id in turn. */
  function AppendNew(keys: seq<string>, ids: seq<string>): seq<string>
    decreases |ids|
  {
    if ids == [] then keys
    else AppendNew(if ids[0] in keys then keys else keys + [ids[0]], ids[1..])
  }

  /** `products[i]` is the last product with its id. */
  ghost predicate LastWithId(products: seq<Api.Product>, i: int) {
    0 <= i < |products| && forall j :: i < j < |products| ==> products[j].pdtId != products[i].pdtId
  }

  /** A successful loop leaves one entry per product id, keeps the existing keys in place and
      appends new ids in the order the products are listed. */
  lemma {:induction false} RefreshFromKeys(c: Client, creds: Credentials, parse: FloatParser,
                                           products: seq<Api.Product>, data: Snapshot, log: seq<Entry>)
    ensures var r := RefreshFrom(c, creds, parse, products, data, log);
      r.result.Refreshed? ==>
        && Keys(r.result.data) == AppendNew(Keys(data), Ids(products))
        && (Valid(data) ==> Valid(r.result.data))
    decreases |products|
  {
    if products != [] {
      var p := products[0];
      var s := FetchProduct(c, creds, log, p.pdtId);
      assert Ids(products) == [p.pdtId] + Ids(products[1..]);
      if s.outcome.Ok? {
        var f := s.outcome.value;
        RefreshFromKeys(c, creds, parse, products[1..],
          Put(data, p.pdtId, NormalizeProduct(p, f.balance, f.details, parse)), s.log);
      }
    }
  }

  /** Entries `j` and `j + 1` of `log` are an answered fetch of product `id`, and `f` holds
      the payloads the client returned to those two calls. */
  ghost predicate FetchedAt(c: Client, log: seq<Entry>, j: nat, id: string, f: Fetched) {
    && j + 1 < |log|
    && log[j] == Entry(BalanceCall(id), Answered)
    && log[j + 1] == Entry(DetailsCall(id), Answered)
    && c.balance(log[..j], id) == Ok(f.balance)
    && c.details(log[..j + 1], id) == Ok(f.details)
  }

  /** No read of product `id` from entry `k` on. */
  ghost predicate NoReadAfter(log: seq<Entry>, k: nat, id: string) {
    forall m :: k <= m < |log| && !log[m].call.AuthCall? ==> log[m].call.pdtId != id
  }

  /** `v` is what the normaliser makes of product `p` from the payloads of the last fetch of
      `p`'s id in the log from `lo` on. */
  ghost predicate FromLastFetch(c: Client, log: seq<Entry>, lo: nat, p: Api.Product, v: ProductState,
                                parse: FloatParser) {
    exists j: nat, f: Fetched ::
      && lo <= j && FetchedAt(c, log, j, p.pdtId, f) && NoReadAfter(log, j + 2, p.pdtId)
      && v == NormalizeProduct(p, f.balance, f.details, parse)
  }

  /** A successful fetch ends with the two answered reads whose payloads it returns. */
  lemma FetchPairPayloads(c: Client, log: seq<Entry>, id: string)
    ensures var s := FetchPair(c, log, id);
      s.outcome.Ok? ==> |s.log| == |log| + 2 && FetchedAt(c, s.log, |log|, id, s.outcome.value)
  {
    var s := FetchPair(c, log, id);
    if s.outcome.Ok? {
      assert s.log[..|log|] == log;
      assert s.log[..|log| + 1] == log + [s.log[|log|]];
    }
  }

  /** The same for a fetch with its possible retry: its payloads are those of its last two
      reads. */
  lemma FetchProductPayloads(c: Client, creds: Credentials, log: seq<Entry>, id: string)
    ensures var s := FetchProduct(c, creds, log, id);
      s.outcome.Ok? ==> |log| + 2 <= |s.log| && FetchedAt(c, s.log, |s.log| - 2, id, s.outcome.value)
  {
    var first := FetchPair(c, log, id);
    if first.outcome.AuthErr? {
      var s := FetchProduct(c, creds, log, id);
      FetchPairPayloads(c, s.log[..|first.log| + 1], id);
    } else {
      FetchPairPayloads(c, log, id);
    }
  }

  /** Extending the log keeps a recorded fetch where it is. */
  lemma FetchedAtExtend(c: Client, log: seq<Entry>, log': seq<Entry>, j: nat, id: string, f: Fetched)
    requires |log| <= |log'| && log'[..|log|] == log
    requires FetchedAt(c, log, j, id, f)
    ensures FetchedAt(c, log', j, id, f)
  {
    assert log'[..j] == log[..j];
    assert log'[..j + 1] == log[..j + 1];
    assert log'[j] == log[j] && log'[j + 1] == log[j + 1];
  }

  /** `out` holds, for each product id, the state normalised from the LAST product listed with
      that id (`data[pdt_id] = ...` overwrites), made from the payloads of the last fetch of
      that id in the log from `lo` on. */
  ghost predicate LastEntries(c: Client, log: seq<Entry>, lo: nat, products: seq<Api.Product>,
                              out: Snapshot, parse: FloatParser) {
    forall i :: LastWithId(products, i) ==>
      Get(out, products[i].pdtId).Some? &&
      FromLastFetch(c, log, lo, products[i], Get(out, products[i].pdtId).value, parse)
  }

  /** `out` agrees with `data` on every id no product lists. */
  ghost predicate OthersKept(products: seq<Api.Product>, data: Snapshot, out: Snapshot) {
    forall k :: k !in Ids(products) ==> Get(out, k) == Get(data, k)
  }

  /** Ids the rest of the loop does not list keep what the first store left, so ids no
      product lists keep their entry in `data`. */
  lemma OthersKeptStep(products: seq<Api.Product>, data: Snapshot, v: ProductState, out: Snapshot)
    requires products != []
    requires OthersKept(products[1..], Put(data, products[0].pdtId, v), out)
    ensures OthersKept(products, data, out)
  {
    assert Ids(products) == [products[0].pdtId] + Ids(products[1..]);
    forall k | k !in Ids(products)
      ensures Get(out, k) == Get(data, k)
    {
      GetAfterPut(data, products[0].pdtId, v, k);
    }
  }

  /** The rest of the loop reads only the ids it lists, so when no later product has the
      first product's id, the first product's fetch is the last read of that id, and its
      entry survives. */
  lemma FirstEntryStays(c: Client, log: seq<Entry>, lo: nat, mid: nat, f: Fetched,
                        products: seq<Api.Product>, data: Snapshot, out: Snapshot, parse: FloatParser)
    requires LastWithId(products, 0) && lo + 2 <= mid
    requires FetchedAt(c, log, mid - 2, products[0].pdtId, f)
    requires ReadsOnly(log, mid, Ids(products[1..]))
    requires OthersKept(products[1..],
      Put(data, products[0].pdtId, NormalizeProduct(products[0], f.balance, f.details, parse)), out)
    ensures Get(out, products[0].pdtId) == Some(NormalizeProduct(products[0], f.balance, f.details, parse))
    ensures FromLastFetch(c, log, lo, products[0], Get(out, products[0].pdtId).value, parse)
  {
    var p := products[0];
    var rest := products[1..];
    assert p.pdtId !in Ids(rest) by {
      forall k | 0 <= k < |rest|
        ensures Ids(rest)[k] != p.pdtId
      {
        assert rest[k] == products[k + 1];
      }
    }
    GetAfterPut(data, p.pdtId, NormalizeProduct(p, f.balance, f.details, parse), p.pdtId);
    assert NoReadAfter(log, mid, p.pdtId);
    assert FetchedAt(c, log, mid - 2, p.pdtId, f);
  }

  /** A fetch that is the last of its id from `mid` on is also the last from any `lo <= mid`. */
  lemma FromLastFetchEarlier(c: Client, log: seq<Entry>, lo: nat, mid: nat, p: Api.Product,
                             v: ProductState, parse: FloatParser)
    requires lo <= mid && FromLastFetch(c, log, mid, p, v, parse)
    ensures FromLastFetch(c, log, lo, p, v, parse)
  {
  }

  /** The first product's entry, with the later products' last entries from the rest of the
      loop, gives every listed id its last entry. */
  lemma LastEntriesStep(c: Client, log: seq<Entry>, lo: nat, mid: nat, f: Fetched,
                        products: seq<Api.Product>, data: Snapshot, out: Snapshot, parse: FloatParser)
    requires products != [] && lo + 2 <= mid
    requires FetchedAt(c, log, mid - 2, products[0].pdtId, f)
    requires ReadsOnly(log, mid, Ids(products[1..]))
    requires LastEntries(c, log, mid, products[1..], out, parse)
    requires OthersKept(products[1..],
      Put(data, products[0].pdtId, NormalizeProduct(products[0], f.balance, f.details, parse)), out)
    ensures LastEntries(c, log, lo, products, out, parse)
  {
    var rest := products[1..];
    forall i | LastWithId(products, i)
      ensures Get(out, products[i].pdtId).Some?
      ensures FromLastFetch(c, log, lo, products[i], Get(out, products[i].pdtId).value, parse)
    {
      if i == 0 {
        FirstEntryStays(c, log, lo, mid, f, products, data, out, parse);
      } else {
        assert LastWithId(rest, i - 1) && rest[i - 1] == products[i];
        FromLastFetchEarlier(c, log, lo, mid, products[i], Get(out, products[i].pdtId).value, parse);
      }
    }
  }

  /** One store followed by the rest of the loop: what `RefreshFromLastWins` needs of one
      step, stated on the logs alone. */
  lemma LastWinsStep(c: Client, log: seq<Entry>, sLog: seq<Entry>, rLog: seq<Entry>, f: Fetched,
                     products: seq<Api.Product>, data: Snapshot, out: Snapshot, parse: FloatParser)
    requires products != []
    requires |log| + 2 <= |sLog| <= |rLog| && rLog[..|sLog|] == sLog
    requires FetchedAt(c, sLog, |sLog| - 2, products[0].pdtId, f)
    requires ReadsOnly(rLog, |sLog|, Ids(products[1..]))
    requires LastEntries(c, rLog, |sLog|, products[1..], out, parse)
    requires OthersKept(products[1..],
      Put(data, products[0].pdtId, NormalizeProduct(products[0], f.balance, f.details, parse)), out)
    ensures LastEntries(c, rLog, |log|, products, out, parse) && OthersKept(products, data, out)
  {
    FetchedAtExtend(c, sLog, rLog, |sLog| - 2, products[0].pdtId, f);
    LastEntriesStep(c, rLog, |log|, |sLog|, f, products, data, out, parse);
    OthersKeptStep(products, data, NormalizeProduct(products[0], f.balance, f.details, parse), out);
  }

  /** After a successful loop, each product id maps to the state normalised from the last
      product listed with that id, out of the payloads of the last fetch of that id, and ids
      not listed keep their previous entry. */
  lemma {:induction false} RefreshFromLastWins(c: Client, creds: Credentials, parse: FloatParser,
                                               products: seq<Api.Product>, data: Snapshot, log: seq<Entry>)
    ensures var r := RefreshFrom(c, creds, parse, products, data, log);
      r.result.Refreshed? ==>
        LastEntries(c, r.log, |log|, products, r.result.data, parse) &&
        OthersKept(products, data, r.result.data)
    decreases |products|
  {
    if products != [] {
      var p := products[0];
      var s := FetchProduct(c, creds, log, p.pdtId);
      match s.outcome
      case Ok(f) =>
        var data' := Put(data, p.pdtId, NormalizeProduct(p, f.balance, f.details, parse));
        RefreshFromLastWins(c, creds, parse, products[1..], data', s.log);
        var r := RefreshFrom(c, creds, parse, products[1..], data', s.log);
        FetchProductPayloads(c, creds, log, p.pdtId);
        RefreshFromReads(c, creds, parse, products[1..], data', s.log);
        if r.result.Refreshed? {
          LastWinsStep(c, log, s.log, r.log, f, products, data, r.result.data, parse);
        }
      case AuthErr =>
      case ConnErr =>
    }
  }

  /** A successful cycle publishes exactly the listed product ids, each once, in the order
      they are first listed; each is mapped to the state normalised from the last product
      listed with that id, out of the balance and details payloads the client returned to the
      last fetch of that id in the cycle; and every listed product was fetched, in listing
      order, once apart from its retry. */
  lemma RefreshCycleData(c: Client, creds: Credentials, parse: FloatParser,
                         products: seq<Api.Product>, history: seq<Entry>)
    ensures var r := RefreshCycle(c, creds, parse, products, history);
      r.result.Refreshed? ==>
        && Keys(r.result.data) == AppendNew([], Ids(products))
        && Valid(r.result.data)
        && (forall i :: LastWithId(products, i) ==>
              Get(r.result.data, products[i].pdtId).Some? &&
              FromLastFetch(c, r.log, |history|, products[i], Get(r.result.data, products[i].pdtId).value, parse))
        && (forall k :: k !in Ids(products) ==> Get(r.result.data, k) == None)
        && FirstReads(r.log, |history|, false) == Ids(products)
  {
    RefreshFromKeys(c, creds, parse, products, [], history);
    RefreshFromLastWins(c, creds, parse, products, [], history);
    RefreshFromFirstReads(c, creds, parse, products, [], history);
  }

  // ---------------------------------------------------------------------------------------
  // the coordinator over the client of `api.py`

  /** The raw replies of the 2Park service, as the client methods receive them. */
  datatype Service = Service(
    balance: (seq<Entry>, string) -> Api.Transport<Api.Envelope<Api.BalanceData>>,
    details: (seq<Entry>, string) -> Api.Transport<Api.Envelope<Details>>,
    authenticate: (seq<Entry>, Credentials) -> Api.Transport<Api.Envelope<Api.LoginData>>)

  /** A client result as the coordinator's `except` clauses see it. */
  function Lift<T>(r: Result<T, Api.ApiError>): Outcome<T>
    requires r.Failure? ==> !r.error.TwoParkApiError?
  {
    match r
    case Success(v) => Ok(v)
    case Failure(e) => if e.AuthenticationError? then AuthErr else ConnErr
  }

  /** `TwoParkApi` as the coordinator uses it. */
  function ApiClient(s: Service): Client {
    Client(
      (h: seq<Entry>, id: string) => Lift(Api.GetBalance(s.balance(h, id))),
      (h: seq<Entry>, id: string) => Lift(Api.GetProductDetails(s.details(h, id))),
      (h: seq<Entry>, cr: Credentials) => Lift(Api.Authenticate(s.authenticate(h, cr))))
  }

  /** Over the client of `api.py` the re-authentication branch is never taken and the cycle
      never ends in `ConfigEntryAuthFailed`, whatever the service replies: `get_balance` and
      `get_product_details` do not inspect the reply's status, so they raise only
      `ConnectionError`; if the service answers an expired session with an envelope
      without `data`, the reads return empty payloads instead. */
  lemma ReauthenticationUnreachable(s: Service, creds: Credentials, parse: FloatParser,
                                    products: seq<Api.Product>, history: seq<Entry>)
    ensures var r := RefreshCycle(ApiClient(s), creds, parse, products, history);
      && (forall j :: |history| <= j < |r.log| ==> !r.log[j].call.AuthCall?)
      && !r.result.AuthFailed?
  {
    var c := ApiClient(s);
    forall h, id
      ensures !c.balance(h, id).AuthErr? && !c.details(h, id).AuthErr?
    {
      Api.ReadsNeverRaiseAuthenticationError(s.balance(h, id), s.details(h, id));
    }
    NoRefusalNoReauthentication(c, creds, parse, products, history);
  }
}

=== FILE: dicts.dfy ===
/** Python's `dict` as the integration uses it: an insertion-ordered table whose iteration
    order is the order in which keys were first inserted. */
module Dicts {
  import opened Wrappers

  /** Entries in insertion order; keys are strings throughout the integration. */
  type Dict<V> = seq<(string, V)>

  /** No key occurs twice (every dict built by `Put` from the empty one). */
  ghost predicate Valid<V>(d: Dict<V>) {
    forall i, j :: 0 <= i < j < |d| ==> d[i].0 != d[j].0
  }

  /** The keys in iteration order (Python `list(d)`). */
  function Keys<V>(d: Dict<V>): (ks: seq<string>)
    ensures |ks| == |d|
    ensures forall i :: 0 <= i < |d| ==> ks[i] == d[i].0
  {
    if d == [] then [] else [d[0].0] + Keys(d[1..])
  }

  /** Position of the entry with key `k`, the first one if `d` is not `Valid`. */
  function IndexOf<V>(d: Dict<V>, k: string): (r: Option<nat>)
    ensures r.Some? ==> r.value < |d| && d[r.value].0 == k
    ensures r.Some? ==> forall j :: 0 <= j < r.value ==> d[j].0 != k
    ensures r.None? ==> forall j :: 0 <= j < |d| ==> d[j].0 != k
  {
    if d == [] then None
    else if d[0].0 == k then Some(0)
    else match IndexOf(d[1..], k)
      case Some(i) => Some(i + 1)
      case None => None
  }

  /** Python `d.get(k)`. */
  function Get<V>(d: Dict<V>, k: string): (r: Option<V>)
    ensures r.Some? <==> k in Keys(d)
    ensures Valid(d) ==> forall i :: 0 <= i < |d| && d[i].0 == k ==> r == Some(d[i].1)
  {
    match IndexOf(d, k)
    case Some(i) => Some(d[i].1)
    case None => None
  }

  /** Python `d[k] = v`: the value is replaced in place when `k` is present, and the entry is
      appended otherwise, so the iteration order of the existing keys never changes. */
  function Put<V>(d: Dict<V>, k: string, v: V): (r: Dict<V>)
    ensures Valid(d) ==> Valid(r)
    ensures k in Keys(d) ==> Keys(r) == Keys(d)
    ensures k !in Keys(d) ==> Keys(r) == Keys(d) + [k]
  {
    match IndexOf(d, k)
    case Some(i) => d[i := (k, v)]
    case None => d + [(k, v)]
  }

  lemma IndexOfIsFirst<V>(d: Dict<V>, k: string, i: nat)
    requires i < |d| && d[i].0 == k
    requires forall j :: 0 <= j < i ==> d[j].0 != k
    ensures IndexOf(d, k) == Some(i)
  {
  }

  /** Reading back after `d[k] = v`: `k` maps to `v` and every other key keeps its value. */
  lemma GetAfterPut<V>(d: Dict<V>, k: string, v: V, k': string)
    ensures Get(Put(d, k, v), k') == if k' == k then Some(v) else Get(d, k')
  {
    var r := Put(d, k, v);
    match IndexOf(d, k)
    case Some(i) =>
      if k' == k {
        IndexOfIsFirst(r, k, i);
      } else {
        match IndexOf(d, k')
        case Some(j) => IndexOfIsFirst(r, k', j);
        case None =>
      }
    case None =>
      if k' == k {
        IndexOfIsFirst(r, k, |d|);
      } else {
        match IndexOf(d, k')
        case Some(j) => IndexOfIsFirst(r, k', j);
        case None =>
      }
  }
}

=== FILE: normalizer.dfy ===
/** The normalisation half of `coordinator.py`: the label lookups over parameter lists, the
    balance parser, member selection for the two kinds of product (resident permits tagged
    FLPN and visitor schemes), and the per-product state the coordinator publishes. */
module Normalizer {
  import opened Wrappers
  import opened Strings
  import opened Seqs
  import opened Payloads
  import opened Dicts
  import Api

  /** Python `float(text)`, left abstract: `None` where it raises `ValueError`. */
  type FloatParser = string -> Option<real>

  /** The exception `_extract_balance` lets escape (see `ExtractBalanceAsWritten`). */
  datatype Escaped = TypeError

  /** A member as the coordinator publishes it. */
  datatype Member = Member(
    mbrId: string,
    identifier: string,
    mbrType: Option<string>,
    mbrActive: Option<string>,
    nickname: Option<string>,
    actions: seq<Action>)

  /** One product's entry in the published snapshot. */
  datatype ProductState = ProductState(
    balance: Option<real>,
    currencyCode: Option<string>,
    currencyDesc: Option<string>,
    pdtName: string,
    pdtOptions: string,
    pdtLocation: Option<string>,
    members: seq<Member>)

  /** The coordinator's data: product id to product state, in insertion order. */
  type Snapshot = Dict<ProductState>

  // ---------------------------------------------------------------------------------------
  // label lookups

  /** `_extract_param`: the value of the first parameter labelled `wanted`; a missing or
      null value of that parameter, or no such parameter, gives `None`. */
  function ExtractParam(params: seq<Param>, wanted: string): (r: Option<string>)
    ensures NoneLabelled(params, wanted) ==> r == None
    ensures forall i :: IsFirstLabelled(params, wanted, i) ==> r == params[i].value.Get()
  {
    if params == [] then None
    else if params[0].name == Some(wanted) then params[0].value.Get()
    else
      assert forall i :: IsFirstLabelled(params, wanted, i) ==> IsFirstLabelled(params[1..], wanted, i - 1);
      ExtractParam(params[1..], wanted)
  }

  /** `_extract_member_nickname`: the first `NICKNAME` parameter's value. */
  function ExtractNickname(m: RawMember): (r: Option<string>)
    ensures NoneLabelled(m.params, "NICKNAME") ==> r == None
    ensures forall i :: IsFirstLabelled(m.params, "NICKNAME", i) ==> r == m.params[i].value.Get()
  {
    ExtractParam(m.params, "NICKNAME")
  }

  // ---------------------------------------------------------------------------------------
  // _extract_balance

  /** `float(param["prr_value"])` inside `except (ValueError, KeyError)`, as written: a missing
      value is caught, an unparseable one is caught, but `float(None)` raises `TypeError`. */
  function AmountAsWritten(v: Field, parse: FloatParser): Result<Option<real>, Escaped> {
    match v
    case Missing => Success(None)
    case Null => Failure(TypeError)
    case Text(t) => Success(parse(t))
  }

  /** The intended reading of one `AMOUNT` value: anything but a parseable string is `None`. */
  function Amount(v: Field, parse: FloatParser): Option<real> {
    match v
    case Text(t) => parse(t)
    case _ => None
  }

  /** `_extract_balance` as written: only the first `AMOUNT` parameter is looked at. */
  function ExtractBalanceAsWritten(params: seq<Param>, parse: FloatParser): (r: Result<Option<real>, Escaped>)
    ensures NoneLabelled(params, "AMOUNT") ==> r == Success(None)
    ensures forall i :: IsFirstLabelled(params, "AMOUNT", i) ==> r == AmountAsWritten(params[i].value, parse)
  {
    if params == [] then Success(None)
    else if params[0].name == Some("AMOUNT") then AmountAsWritten(params[0].value, parse)
    else
      assert forall i :: IsFirstLabelled(params, "AMOUNT", i) ==> IsFirstLabelled(params[1..], "AMOUNT", i - 1);
      ExtractBalanceAsWritten(params[1..], parse)
  }

  /** `_extract_balance` as intended: the first `AMOUNT` parameter decides, and a missing, null
      or unparseable value gives `None` without looking further; it never raises. */
  function ExtractBalance(params: seq<Param>, parse: FloatParser): (r: Option<real>)
    ensures NoneLabelled(params, "AMOUNT") ==> r == None
    ensures forall i :: IsFirstLabelled(params, "AMOUNT", i) ==> r == Amount(params[i].value, parse)
    ensures r.Some? ==> exists i :: IsFirstLabelled(params, "AMOUNT", i) && params[i].value.Text?
  {
    if params == [] then None
    else if params[0].name == Some("AMOUNT") then
      assert IsFirstLabelled(params, "AMOUNT", 0);
      Amount(params[0].value, parse)
    else
      assert forall i :: IsFirstLabelled(params, "AMOUNT", i) ==> IsFirstLabelled(params[1..], "AMOUNT", i - 1);
      assert forall i :: IsFirstLabelled(params[1..], "AMOUNT", i) ==> IsFirstLabelled(params, "AMOUNT", i + 1);
      ExtractBalance(params[1..], parse)
  }

  /** A balance whose `AMOUNT` value is JSON null makes the written code raise. */
  lemma NullAmountRaises(parse: FloatParser)
    ensures ExtractBalanceAsWritten([Param(Some("AMOUNT"), Null)], parse) == Failure(TypeError)
  {
  }

  /** The corrected parser agrees with the written one wherever that one returns, and gives
      `None` exactly where it raises. */
  lemma {:induction false} ExtractBalanceCorrectsNullAmount(params: seq<Param>, parse: FloatParser)
    ensures ExtractBalanceAsWritten(params, parse).Success? ==>
      ExtractBalance(params, parse) == ExtractBalanceAsWritten(params, parse).value
    ensures ExtractBalanceAsWritten(params, parse).Failure? ==> ExtractBalance(params, parse) == None
    decreases |params|
  {
    if params != [] && params[0].name != Some("AMOUNT") {
      ExtractBalanceCorrectsNullAmount(params[1..], parse);
    }
  }

  // ---------------------------------------------------------------------------------------
  // member selection

  predicate IsFlpn(m: RawMember) {
    m.mbrType == Some("FLPN")
  }

  predicate IsLpn(m: RawMember) {
    m.mbrType == Some("LPN")
  }

  function MemberId(m: RawMember): string {
    m.mbrId
  }

  /** The members of every identification, identification by identification. */
  function IdentificationMembers(idns: seq<Identification>): seq<RawMember> {
    if idns == [] then [] else idns[0].members + IdentificationMembers(idns[1..])
  }

  /** `_extract_flpn_members`: the FLPN members of all identifications, each `mbr_id` once. */
  function ExtractFlpnMembers(details: Details): (r: seq<RawMember>)
    ensures forall i :: 0 <= i < |r| ==> IsFlpn(r[i])
    ensures forall i, j :: 0 <= i < j < |r| ==> r[i].mbrId != r[j].mbrId
  {
    Dedup(IdentificationMembers(details.identifications), IsFlpn, MemberId, {})
  }

  /** The FLPN members keep first-occurrence order across identifications, then members, and
      every FLPN member id found in the input is represented. */
  lemma ExtractFlpnMembersOrder(details: Details)
    ensures Subseq(ExtractFlpnMembers(details), IdentificationMembers(details.identifications))
    ensures forall y :: y in ExtractFlpnMembers(details) ==>
      var cands := IdentificationMembers(details.identifications);
      exists i :: 0 <= i < |cands| && cands[i] == y && FirstKeptAt(cands, IsFlpn, MemberId, i)
    ensures forall i ::
      (0 <= i < |IdentificationMembers(details.identifications)| &&
       IsFlpn(IdentificationMembers(details.identifications)[i])) ==>
      IdentificationMembers(details.identifications)[i].mbrId in KeySet(ExtractFlpnMembers(details), MemberId)
  {
    var cands := IdentificationMembers(details.identifications);
    DedupIsSubseq(cands, IsFlpn, MemberId, {});
    DedupKeepsFirstOccurrences(cands, IsFlpn, MemberId, {});
    DedupCoversKeys(cands, IsFlpn, MemberId, {});
  }

  /** The branch of `_async_update_data` that picks a product's members: FLPN members from the
      identifications when "FLPN" occurs in the options, else the `LPN` members of
      `pdt_members`, in order and with duplicates kept. */
  function SelectMembers(options: string, details: Details): (r: seq<RawMember>)
    ensures forall i :: 0 <= i < |r| ==>
      r[i].mbrType == Some(if Contains(options, "FLPN") then "FLPN" else "LPN")
    ensures Contains(options, "FLPN") ==> forall i, j :: 0 <= i < j < |r| ==> r[i].mbrId != r[j].mbrId
    ensures !Contains(options, "FLPN") ==>
      forall m :: multiset(r)[m] == if IsLpn(m) then multiset(details.members)[m] else 0
    ensures Contains(options, "FLPN") ==> r == ExtractFlpnMembers(details)
  {
    if Contains(options, "FLPN") then ExtractFlpnMembers(details)
    else Filter(details.members, IsLpn)
  }

  /** The visitor branch also keeps the order of `pdt_members`. */
  lemma VisitorMembersInOrder(options: string, details: Details)
    requires !Contains(options, "FLPN")
    ensures Subseq(SelectMembers(options, details), details.members)
  {
    FilterIsSubseq(details.members, IsLpn);
  }

  // ---------------------------------------------------------------------------------------
  // the per-product state

  /** One entry of the `members` list the coordinator publishes. */
  function NormalizeMember(m: RawMember): Member {
    Member(m.mbrId, m.identifier, m.mbrType, m.mbrActive, ExtractNickname(m), m.actions)
  }

  /** The `data[pdt_id]` record built from one product's balance and details payloads. */
  function NormalizeProduct(p: Api.Product, balance: Balance, details: Details, parse: FloatParser): (s: ProductState)
    ensures s.pdtName == p.pdtName && s.pdtOptions == p.pdtOptions && s.pdtLocation == p.pdtLocation
    ensures s.balance == ExtractBalance(balance.params, parse)
    ensures s.currencyCode == ExtractParam(balance.params, "CURRENCY_CODE")
    ensures s.currencyDesc == ExtractParam(balance.params, "CURRENCY_DESC")
    ensures |s.members| == |SelectMembers(p.pdtOptions, details)|
    ensures forall i :: 0 <= i < |s.members| ==>
      var m := SelectMembers(p.pdtOptions, details)[i];
      && s.members[i].mbrId == m.mbrId
      && s.members[i].identifier == m.identifier
      && s.members[i].mbrType == m.mbrType
      && s.members[i].mbrActive == m.mbrActive
      && s.members[i].nickname == ExtractNickname(m)
      && s.members[i].actions == m.actions
  {
    var selected := SelectMembers(p.pdtOptions, details);
    ProductState(
      ExtractBalance(balance.params, parse),
      ExtractParam(balance.params, "CURRENCY_CODE"),
      ExtractParam(balance.params, "CURRENCY_DESC"),
      p.pdtName,
      p.pdtOptions,
      p.pdtLocation,
      seq(|selected|, i requires 0 <= i < |selected| => NormalizeMember(selected[i])))
  }
}

=== FILE: payloads.dfy ===
/** The JSON records the 2Park service sends, as the integration reads them. A list-valued key
    that is absent reads as the empty list, exactly as `.get(key, [])` does, so absent lists
    are represented by `[]`. */
module Payloads {
  import opened Wrappers

  /** The `prr_value` slot of a parameter (and the `atn_id` slot of an action): the key may be
      absent, present with JSON null, or present with a string. */
  datatype Field = Missing | Null | Text(text: string) {

    /** Python `obj.get(key)`: absent and null both read as `None`. */
    function Get(): Option<string> {
      if Text? then Some(text) else None
    }

    /** Python truthiness of that value: a non-empty string. */
    predicate Truthy() {
      Text? && text != ""
    }
  }

  /** One parameter: `name` is its `prr_label`, `value` its `prr_value`. */
  datatype Param = Param(name: Option<string>, value: Field)

  /** A remote parking action: its `atn_parameters` and its `atn_id` slot. */
  datatype Action = Action(params: seq<Param>, atnId: Field)

  /** A member record as sent by the service (`mbr_id`, `mbr_identifier` -- the licence
      plate --, `mbr_type`, `mbr_active`, `mbr_parameters`, `mbr_actions`). */
  datatype RawMember = RawMember(
    mbrId: string,
    identifier: string,
    mbrType: Option<string>,
    mbrActive: Option<string>,
    params: seq<Param>,
    actions: seq<Action>)

  /** One entry of `pdt_identifications`, holding `idn_members`. */
  datatype Identification = Identification(members: seq<RawMember>)

  /** The product-details payload: `pdt_members` and `pdt_identifications`. */
  datatype Details = Details(members: seq<RawMember>, identifications: seq<Identification>)

  /** The balance payload: `ble_parameters`. */
  datatype Balance = Balance(params: seq<Param>)

  /** The empty JSON object `{}` read as a details payload. */
  const EmptyDetails: Details := Details([], [])

  /** The empty JSON object `{}` read as a balance payload. */
  const EmptyBalance: Balance := Balance([])

  /** `params[i]` is the first parameter labelled `wanted`. */
  ghost predicate IsFirstLabelled(params: seq<Param>, wanted: string, i: int) {
    && 0 <= i < |params|
    && params[i].name == Some(wanted)
    && forall j :: 0 <= j < i ==> params[j].name != Some(wanted)
  }

  /** `params[i]` is the last parameter labelled `wanted`. */
  ghost predicate IsLastLabelled(params: seq<Param>, wanted: string, i: int) {
    && 0 <= i < |params|
    && params[i].name == Some(wanted)
    && forall j :: i < j < |params| ==> params[j].name != Some(wanted)
  }

  /** No parameter is labelled `wanted`. */
  ghost predicate NoneLabelled(params: seq<Param>, wanted: string) {
    forall i :: 0 <= i < |params| ==> params[i].name != Some(wanted)
  }
}

=== FILE: select.dfy ===
/** The licence-plate picker of the select platform: one picker per visitor product, whose
    options are the product's members formatted as "PLATE (nickname)", and whose selection is
    dropped when the plate it names disappears. */
module Select {
  import opened Wrappers
  import opened Seqs
  import opened Strings
  import opened Dicts
  import opened Normalizer
  import Sensor

  /** The separator between a plate and its nickname in an option. */
  const Separator: string := " ("

  /** Python truthiness of `member.get("nickname")`. */
  predicate HasNickname(m: Member) {
    m.nickname.Some? && m.nickname.value != ""
  }

  /** `_format_plate_option`: the plate, followed by " (nickname)" when the nickname is set and
      non-empty. */
  function FormatPlateOption(m: Member): (o: string)
    ensures |m.identifier| <= |o| && o[..|m.identifier|] == m.identifier
    ensures |o| == |m.identifier| <==> !HasNickname(m)
    ensures HasNickname(m) ==> o[|m.identifier|..] == Separator + m.nickname.value + ")"
  {
    if HasNickname(m) then m.identifier + Separator + m.nickname.value + ")" else m.identifier
  }

  /** An occurrence inside a prefix is an occurrence in the whole string. */
  lemma OccursInPrefix(s: string, sub: string, n: nat, j: nat)
    requires n <= |s| && OccursAt(s[..n], sub, j)
    ensures OccursAt(s, sub, j)
  {
    assert s[..n][j..j + |sub|] == s[j..j + |sub|];
  }

  /** `extract_plate`, i.e. `option.split(" (")[0]`: the part of the option before the first
      " (", or the whole option when there is none. */
  function ExtractPlate(option: string): (p: string)
    ensures |p| <= |option| && option[..|p|] == p
    ensures !Contains(p, Separator)
    ensures |p| < |option| ==> OccursAt(option, Separator, |p|)
  {
    match Find(option, Separator)
    case None => option
    case Some(k) =>
      var p := option[..k];
      assert !Contains(p, Separator) by {
        if Find(p, Separator).Some? {
          OccursInPrefix(option, Separator, k, Find(p, Separator).value);
        }
      }
      p
  }

  /** Taking the plate of a plate changes nothing. */
  lemma ExtractPlateIdempotent(option: string)
    ensures ExtractPlate(ExtractPlate(option)) == ExtractPlate(option)
  {
    var p := ExtractPlate(option);
    assert Find(p, Separator).None?;
  }

  /** The plate is recovered from its option whenever it does not itself contain " (". */
  lemma PlateRoundTrip(m: Member)
    requires !Contains(m.identifier, Separator)
    ensures ExtractPlate(FormatPlateOption(m)) == m.identifier
  {
    var plate := m.identifier;
    var o := FormatPlateOption(m);
    if HasNickname(m) {
      assert o[|plate|] == ' ' && o[|plate| + 1] == '(';
      assert OccursAt(o, Separator, |plate|);
      assert Find(plate, Separator).None?;
      forall k: nat | k < |plate|
        ensures !OccursAt(o, Separator, k)
      {
        if k + 2 <= |plate| {
          assert o[..|plate|][k..k + 2] == o[k..k + 2];
          assert !OccursAt(plate, Separator, k);
        } else {
          assert o[k + 1] == ' ';
        }
      }
    } else {
      assert o == plate;
      assert Find(o, Separator).None?;
    }
  }

  /** `TwoParkLicensePlateSelect.options`: one formatted option per member of the product, in
      member order, none for an unknown product. */
  function Options(snap: Snapshot, pdt: string): (opts: seq<string>)
    ensures |opts| == |Sensor.MembersOf(snap, pdt)|
    ensures pdt !in Keys(snap) ==> opts == []
    ensures forall i :: 0 <= i < |opts| ==> opts[i] == FormatPlateOption(Sensor.MembersOf(snap, pdt)[i])
  {
    var ms := Sensor.MembersOf(snap, pdt);
    seq(|ms|, i requires 0 <= i < |ms| => FormatPlateOption(ms[i]))
  }

  /** Every option names its member's plate, provided plates do not contain " (". */
  lemma OptionsNamePlates(snap: Snapshot, pdt: string)
    requires forall i :: 0 <= i < |Sensor.MembersOf(snap, pdt)| ==>
      !Contains(Sensor.MembersOf(snap, pdt)[i].identifier, Separator)
    ensures forall i :: 0 <= i < |Options(snap, pdt)| ==>
      ExtractPlate(Options(snap, pdt)[i]) == Sensor.MembersOf(snap, pdt)[i].identifier
  {
    var ms := Sensor.MembersOf(snap, pdt);
    forall i | 0 <= i < |ms|
      ensures ExtractPlate(Options(snap, pdt)[i]) == ms[i].identifier
    {
      PlateRoundTrip(ms[i]);
    }
  }

  /** `_handle_coordinator_update`: a selection that is set and non-empty but no longer among
      the options is cleared; any other selection is kept. */
  function HandleUpdate(current: Option<string>, options: seq<string>): (r: Option<string>)
    ensures r.None? <==> current.None? || (current.value != "" && current.value !in options)
    ensures r.Some? ==> r == current
  {
    if current.Some? && current.value != "" && current.value !in options then None else current
  }

  /** After an update, a non-empty selection is one of the options, and a second update with the
      same options changes nothing. */
  lemma HandleUpdateSettles(current: Option<string>, options: seq<string>)
    ensures var r := HandleUpdate(current, options);
      && (r.Some? && r.value != "" ==> r.value in options)
      && HandleUpdate(r, options) == r
  {
  }

  /** The product ids that get a picker (`async_setup_entry` skips products whose options
      contain "FLPN"), in snapshot order. */
  function PickerProducts(snap: Snapshot): (ids: seq<string>)
    ensures forall id :: id in ids <==>
      exists i :: 0 <= i < |snap| && snap[i].0 == id && !Contains(snap[i].1.pdtOptions, "FLPN")
    ensures |ids| <= |snap|
    decreases |snap|
  {
    if snap == [] then []
    else
      var rest := PickerProducts(snap[1..]);
      assert forall i :: 1 <= i < |snap| ==> snap[1..][i - 1] == snap[i];
      if Contains(snap[0].1.pdtOptions, "FLPN") then rest else [snap[0].0] + rest
  }

  /** The pickers follow the snapshot's product order. */
  lemma {:induction false} PickerProductsInOrder(snap: Snapshot)
    ensures Subseq(PickerProducts(snap), Keys(snap))
    decreases |snap|
  {
    if snap != [] {
      PickerProductsInOrder(snap[1..]);
      assert Keys(snap)[1..] == Keys(snap[1..]);
    }
  }
}

=== FILE: sensor.dfy ===
/** The sensor platform's reading of the coordinator's snapshot: the active-parking count and
    its member list, the per-member parked status and action attributes, the balance unit, and
    the detector that adds a sensor for every member that appears after setup. */
module Sensor {
  import opened Wrappers
  import opened Seqs
  import opened Dicts
  import opened Payloads
  import opened Normalizer
  import Api

  /** `coordinator.data[pdt_id].get("members", [])`, or no members for an unknown product. */
  function MembersOf(snap: Snapshot, pdt: string): seq<Member> {
    match Get(snap, pdt)
    case Some(s) => s.members
    case None => []
  }

  predicate IsActive(m: Member) {
    m.mbrActive == Some("YES")
  }

  // ---------------------------------------------------------------------------------------
  // the active-parking sensor

  /** The number of active members: `sum(1 for m in members if m.get("mbr_active") == "YES")`. */
  function CountActive(ms: seq<Member>): (n: nat)
    ensures n <= |ms|
    ensures n == 0 <==> forall i :: 0 <= i < |ms| ==> !IsActive(ms[i])
    ensures n == |ms| <==> forall i :: 0 <= i < |ms| ==> IsActive(ms[i])
  {
    if ms == [] then 0
    else
      assert forall i :: 1 <= i < |ms| ==> ms[1..][i - 1] == ms[i];
      (if IsActive(ms[0]) then 1 else 0) + CountActive(ms[1..])
  }

  /** The count is the length of the list of active members. */
  lemma {:induction false} CountActiveIsFilterLength(ms: seq<Member>)
    ensures CountActive(ms) == |Filter(ms, IsActive)|
    decreases |ms|
  {
    if ms != [] {
      CountActiveIsFilterLength(ms[1..]);
    }
  }

  /** `TwoParkActiveParkingSensor.native_value`. */
  function ActiveCount(snap: Snapshot, pdt: string): (n: nat)
    ensures pdt !in Keys(snap) ==> n == 0
    ensures n <= |MembersOf(snap, pdt)|
    ensures n == 0 <==> forall i :: 0 <= i < |MembersOf(snap, pdt)| ==> !IsActive(MembersOf(snap, pdt)[i])
  {
    CountActive(MembersOf(snap, pdt))
  }

  /** A member of the details payload that the sensor will count: `mbr_active` is "YES". */
  predicate RawActive(m: RawMember) {
    m.mbrActive == Some("YES")
  }

  /** Normalised members count as active exactly where their raw members are. */
  lemma {:induction false} CountNormalized(raw: seq<RawMember>, ms: seq<Member>)
    requires |ms| == |raw| && forall i :: 0 <= i < |raw| ==> ms[i].mbrActive == raw[i].mbrActive
    ensures CountActive(ms) == |Filter(raw, RawActive)|
    decreases |raw|
  {
    if raw != [] {
      CountNormalized(raw[1..], ms[1..]);
    }
  }

  /** Right after the coordinator stores a product, its active-parking sensor shows the
      number of members the service marks active among those the product's options select
      (FLPN permits, or visitor LPN members). */
  lemma ActiveCountAfterStore(snap: Snapshot, p: Api.Product, balance: Balance, details: Details,
                              parse: FloatParser)
    ensures ActiveCount(Put(snap, p.pdtId, NormalizeProduct(p, balance, details, parse)), p.pdtId)
         == |Filter(SelectMembers(p.pdtOptions, details), RawActive)|
  {
    var v := NormalizeProduct(p, balance, details, parse);
    GetAfterPut(snap, p.pdtId, v, p.pdtId);
    CountNormalized(SelectMembers(p.pdtOptions, details), v.members);
  }

  // ---------------------------------------------------------------------------------------
  // action attributes

  /** Attributes taken from a member's first action; `None` is an absent key, and a present
      key's value is itself optional, as `param.get("prr_value")` may be `None`. */
  datatype ActionAttrs = ActionAttrs(
    parkingStart: Option<Option<string>>,
    parkingEnd: Option<Option<string>>,
    estimatedCost: Option<Option<string>>,
    actionId: Option<Option<string>>)

  const NoActionAttrs: ActionAttrs := ActionAttrs(None, None, None, None)

  /** The value of the last parameter labelled `wanted`, if there is one. */
  function LastValue(params: seq<Param>, wanted: string): (r: Option<Option<string>>)
    ensures NoneLabelled(params, wanted) ==> r == None
    ensures forall i :: IsLastLabelled(params, wanted, i) ==> r == Some(params[i].value.Get())
    ensures r.Some? ==> exists i :: IsLastLabelled(params, wanted, i)
    decreases |params|
  {
    if params == [] then None
    else
      var n := |params| - 1;
      if params[n].name == Some(wanted) then
        assert IsLastLabelled(params, wanted, n);
        Some(params[n].value.Get())
      else
        assert forall i :: IsLastLabelled(params, wanted, i) ==> IsLastLabelled(params[..n], wanted, i);
        assert forall i :: IsLastLabelled(params[..n], wanted, i) ==> IsLastLabelled(params, wanted, i);
        LastValue(params[..n], wanted)
  }

  /** The `for param in action.get("atn_parameters", [])` loop: each known label overwrites
      its attribute, unknown labels are ignored. */
  function ParamAttrs(params: seq<Param>): (a: ActionAttrs)
    ensures a == ActionAttrs(LastValue(params, "TIMESTART"), LastValue(params, "TIMEEND"),
                             LastValue(params, "AMOUNT"), None)
    decreases |params|
  {
    if params == [] then NoActionAttrs
    else
      var n := |params| - 1;
      var a := ParamAttrs(params[..n]);
      var v := Some(params[n].value.Get());
      if params[n].name == Some("TIMESTART") then a.(parkingStart := v)
      else if params[n].name == Some("TIMEEND") then a.(parkingEnd := v)
      else if params[n].name == Some("AMOUNT") then a.(estimatedCost := v)
      else a
  }

  /** `_extract_action_attrs`: nothing without actions; otherwise only the first action is
      read, each attribute being its last parameter with the matching label, and `action_id`
      present exactly when that action has an `atn_id` key. */
  function ExtractActionAttrs(actions: seq<Action>): (a: ActionAttrs)
    ensures actions == [] ==> a == NoActionAttrs
    ensures actions != [] ==>
      && a.parkingStart == LastValue(actions[0].params, "TIMESTART")
      && a.parkingEnd == LastValue(actions[0].params, "TIMEEND")
      && a.estimatedCost == LastValue(actions[0].params, "AMOUNT")
    ensures a.actionId.Some? <==> actions != [] && !actions[0].atnId.Missing?
    ensures a.actionId.Some? ==> a.actionId.value == actions[0].atnId.Get()
  {
    if actions == [] then NoActionAttrs
    else
      var action := actions[0];
      var attrs := ParamAttrs(action.params);
      if action.atnId.Missing? then attrs else attrs.(actionId := Some(action.atnId.Get()))
  }

  /** An action started with `start_action`'s parameters reads back through the sensor: the
      start and end times are the ones sent, there is no cost, and the plate and location
      can be looked up again. */
  lemma StartedActionReadsBack(plate: string, timeEnd: string, location: string,
                               timeStart: Option<string>, now: string, atnId: Field, more: seq<Action>)
    ensures var ps := Api.StartActionParams(plate, timeEnd, location, timeStart, now);
      var a := ExtractActionAttrs([Action(ps, atnId)] + more);
      && a.parkingStart == Some(Some(timeStart.GetOr(now)))
      && a.parkingEnd == Some(Some(timeEnd))
      && a.estimatedCost == None
      && ExtractParam(ps, "MBR_IDENT") == Some(plate)
      && ExtractParam(ps, "LOCATION") == Some(location)
  {
    var ps := Api.StartActionParams(plate, timeEnd, location, timeStart, now);
    assert IsLastLabelled(ps, "TIMESTART", 1);
    assert IsLastLabelled(ps, "TIMEEND", 2);
    assert NoneLabelled(ps, "AMOUNT");
    assert IsFirstLabelled(ps, "MBR_IDENT", 0);
    assert IsFirstLabelled(ps, "LOCATION", 3);
  }

  // ---------------------------------------------------------------------------------------
  // the member list attribute

  /** One entry of the active-parking sensor's `members` attribute. */
  datatype MemberAttrs = MemberAttrs(licensePlate: string, nickname: Option<string>, active: bool, action: ActionAttrs)

  function MemberEntry(m: Member): MemberAttrs {
    MemberAttrs(m.identifier, m.nickname, IsActive(m), ExtractActionAttrs(m.actions))
  }

  /** `TwoParkActiveParkingSensor.extra_state_attributes`; `None` stands for `{}`. */
  function MembersAttribute(snap: Snapshot, pdt: string): (r: Option<seq<MemberAttrs>>)
    ensures r.None? <==> pdt !in Keys(snap)
    ensures r.Some? ==> |r.value| == |MembersOf(snap, pdt)|
    ensures r.Some? ==> forall i :: 0 <= i < |r.value| ==>
      var m := MembersOf(snap, pdt)[i];
      && r.value[i].licensePlate == m.identifier
      && r.value[i].nickname == m.nickname
      && (r.value[i].active <==> IsActive(m))
      && r.value[i].action == ExtractActionAttrs(m.actions)
  {
    if pdt !in Keys(snap) then None
    else
      var ms := MembersOf(snap, pdt);
      Some(seq(|ms|, i requires 0 <= i < |ms| => MemberEntry(ms[i])))
  }

  function CountActiveFlags(attrs: seq<MemberAttrs>): nat {
    if attrs == [] then 0 else (if attrs[0].active then 1 else 0) + CountActiveFlags(attrs[1..])
  }

  /** The attribute and the state agree: as many entries are flagged active as the sensor
      counts. */
  lemma MembersAttributeAgreesWithCount(snap: Snapshot, pdt: string)
    requires pdt in Keys(snap)
    ensures CountActiveFlags(MembersAttribute(snap, pdt).value) == ActiveCount(snap, pdt)
  {
    FlagsCount(MembersOf(snap, pdt), MembersAttribute(snap, pdt).value);
  }

  lemma {:induction false} FlagsCount(ms: seq<Member>, attrs: seq<MemberAttrs>)
    requires |attrs| == |ms|
    requires forall i :: 0 <= i < |ms| ==> (attrs[i].active <==> IsActive(ms[i]))
    ensures CountActiveFlags(attrs) == CountActive(ms)
    decreases |ms|
  {
    if ms != [] {
      FlagsCount(ms[1..], attrs[1..]);
    }
  }

  // ---------------------------------------------------------------------------------------
  // the member sensor

  /** `ms[i]` is the first member with id `id`. */
  ghost predicate FirstWithId(ms: seq<Member>, id: string, i: int) {
    0 <= i < |ms| && ms[i].mbrId == id && forall j :: 0 <= j < i ==> ms[j].mbrId != id
  }

  function FindMember(ms: seq<Member>, id: string): (r: Option<Member>)
    ensures forall i :: FirstWithId(ms, id, i) ==> r == Some(ms[i])
    ensures (forall i :: 0 <= i < |ms| ==> ms[i].mbrId != id) ==> r == None
    decreases |ms|
  {
    if ms == [] then None
    else if ms[0].mbrId == id then Some(ms[0])
    else
      assert forall i :: FirstWithId(ms, id, i) ==> FirstWithId(ms[1..], id, i - 1);
      FindMember(ms[1..], id)
  }

  /** `TwoParkMemberSensor._get_member`: the first member of the product with the sensor's
      `mbr_id`, if the product and such a member exist. */
  function GetMember(snap: Snapshot, pdt: string, id: string): (r: Option<Member>)
    ensures forall i :: FirstWithId(MembersOf(snap, pdt), id, i) ==> r == Some(MembersOf(snap, pdt)[i])
    ensures (forall i :: 0 <= i < |MembersOf(snap, pdt)| ==> MembersOf(snap, pdt)[i].mbrId != id) ==> r == None
    ensures pdt !in Keys(snap) ==> r == None
  {
    if pdt !in Keys(snap) then None else FindMember(MembersOf(snap, pdt), id)
  }

  /** `TwoParkMemberSensor.native_value`: "parked" exactly when the first member with the
      sensor's id exists and is active. */
  function MemberStatus(snap: Snapshot, pdt: string, id: string): (st: string)
    ensures st == "parked" || st == "not_parked"
    ensures st == "parked" <==>
      exists i :: FirstWithId(MembersOf(snap, pdt), id, i) && IsActive(MembersOf(snap, pdt)[i])
  {
    var ms := MembersOf(snap, pdt);
    var found := GetMember(snap, pdt, id);
    if found.Some? && IsActive(found.value) then
      assert exists i :: FirstWithId(ms, id, i) by {
        FirstWithIdExists(ms, id);
      }
      "parked"
    else
      "not_parked"
  }

  /** If some member carries `id`, a first one does. */
  lemma {:induction false} FirstWithIdExists(ms: seq<Member>, id: string)
    requires exists i :: 0 <= i < |ms| && ms[i].mbrId == id
    ensures exists i :: FirstWithId(ms, id, i)
    decreases |ms|
  {
    if ms[0].mbrId == id {
      assert FirstWithId(ms, id, 0);
    } else {
      var i :| 0 <= i < |ms| && ms[i].mbrId == id;
      assert ms[1..][i - 1].mbrId == id;
      FirstWithIdExists(ms[1..], id);
      var j :| FirstWithId(ms[1..], id, j);
      assert FirstWithId(ms, id, j + 1);
    }
  }

  /** The member sensor's attributes: plate, nickname and action attributes, or `{}` (`None`)
      when the member is gone. */
  datatype PlateAttrs = PlateAttrs(licensePlate: string, nickname: Option<string>, action: ActionAttrs)

  function MemberAttributes(snap: Snapshot, pdt: string, id: string): (r: Option<PlateAttrs>)
    ensures r.Some? <==> exists i :: FirstWithId(MembersOf(snap, pdt), id, i)
    ensures forall i :: FirstWithId(MembersOf(snap, pdt), id, i) ==>
      var m := MembersOf(snap, pdt)[i];
      r == Some(PlateAttrs(m.identifier, m.nickname, ExtractActionAttrs(m.actions)))
  {
    match GetMember(snap, pdt, id)
    case None => None
    case Some(m) =>
      FirstWithIdExists(MembersOf(snap, pdt), id);
      Some(PlateAttrs(m.identifier, m.nickname, ExtractActionAttrs(m.actions)))
  }

  /** The member sensor has attributes exactly while its product lists a member with its id,
      and it shows "parked" only then. */
  lemma MemberAttributesPresent(snap: Snapshot, pdt: string, id: string)
    ensures MemberAttributes(snap, pdt, id).Some? <==>
      exists i :: 0 <= i < |MembersOf(snap, pdt)| && MembersOf(snap, pdt)[i].mbrId == id
    ensures MemberStatus(snap, pdt, id) == "parked" ==> MemberAttributes(snap, pdt, id).Some?
  {
    var ms := MembersOf(snap, pdt);
    if exists i :: 0 <= i < |ms| && ms[i].mbrId == id {
      FirstWithIdExists(ms, id);
    }
  }

  // ---------------------------------------------------------------------------------------
  // the balance sensor

  /** The unit chosen in `TwoParkBalanceSensor.__init__`: "times" for a `TIMES` currency code,
      "EUR" for anything else, a missing code included. */
  function BalanceUnit(currencyCode: Option<string>): (u: string)
    ensures u == "times" <==> currencyCode == Some("TIMES")
    ensures u == "times" || u == "EUR"
  {
    if currencyCode == Some("TIMES") then "times" else "EUR"
  }

  /** `TwoParkBalanceSensor.native_value`. */
  function BalanceValue(snap: Snapshot, pdt: string): (v: Option<real>)
    ensures pdt !in Keys(snap) ==> v == None
    ensures Valid(snap) ==> forall i :: 0 <= i < |snap| && snap[i].0 == pdt ==> v == snap[i].1.balance
  {
    match Get(snap, pdt)
    case Some(s) => s.balance
    case None => None
  }

  // ---------------------------------------------------------------------------------------
  // the new-member detector

  /** `known_members`: for each product id, the member ids that already have a sensor. */
  type Known = map<string, set<string>>

  function MemberIdOf(m: Member): string {
    m.mbrId
  }

  function AnyMember(m: Member): bool {
    true
  }

  /** `known_members.get(pdt_id, set())`. */
  function Lookup(known: Known, pdt: string): set<string> {
    if pdt in known then known[pdt] else {}
  }

  /** A member sensor to add. */
  datatype NewSensor = NewSensor(pdtId: string, member: Member)

  /** The product and member id of every reported sensor. */
  function ReportedKeys(rs: seq<NewSensor>): set<(string, string)> {
    set i | 0 <= i < |rs| :: (rs[i].pdtId, rs[i].member.mbrId)
  }

  /** The state after a check: the known ids and the sensors to add, in encounter order. */
  datatype Detection = Detection(known: Known, reported: seq<NewSensor>)

  function Tag(pdt: string, ms: seq<Member>): (r: seq<NewSensor>)
    ensures |r| == |ms|
    ensures forall i :: 0 <= i < |r| ==> r[i] == NewSensor(pdt, ms[i])
  {
    seq(|ms|, i requires 0 <= i < |ms| => NewSensor(pdt, ms[i]))
  }

  /** `snap[i]` is the last entry with its key (in a `Valid` snapshot, every entry is). */
  ghost predicate LastKeyAt(snap: Snapshot, i: int) {
    0 <= i < |snap| && forall j :: i < j < |snap| ==> snap[j].0 != snap[i].0
  }

  /** The `known_members` built at setup from the first snapshot: exactly its product ids are
      known (a later entry with the same id would overwrite an earlier one). */
  function InitialKnown(snap: Snapshot): (k: Known)
    ensures forall i :: 0 <= i < |snap| ==> snap[i].0 in k
    ensures forall pdt :: pdt in k ==> exists i :: 0 <= i < |snap| && snap[i].0 == pdt
    decreases |snap|
  {
    if snap == [] then map[]
    else
      var k := InitialKnown(snap[1..]);
      assert forall i :: 0 < i < |snap| ==> snap[1..][i - 1] == snap[i];
      if snap[0].0 in k then k else k[snap[0].0 := KeySet(snap[0].1.members, MemberIdOf)]
  }

  /** Each product id of the first snapshot starts with the ids of its members. */
  lemma {:induction false} InitialKnownContents(snap: Snapshot)
    ensures forall i :: LastKeyAt(snap, i) ==>
      InitialKnown(snap)[snap[i].0] == KeySet(snap[i].1.members, MemberIdOf)
    decreases |snap|
  {
    if snap != [] {
      InitialKnownContents(snap[1..]);
      forall i | LastKeyAt(snap, i)
        ensures InitialKnown(snap)[snap[i].0] == KeySet(snap[i].1.members, MemberIdOf)
      {
        if i > 0 {
          assert snap[1..][i - 1] == snap[i];
          assert LastKeyAt(snap[1..], i - 1);
        }
      }
    }
  }

  /** `_async_check_new_members`: products in snapshot order, members in list order; a member
      is reported when its id is not yet known for its product, and its id becomes known. */
  function CheckNewMembers(items: Snapshot, known: Known): (r: Detection)
    ensures forall pdt :: Lookup(known, pdt) <= Lookup(r.known, pdt)
    ensures forall i, k :: 0 <= i < |items| && 0 <= k < |items[i].1.members| ==>
      items[i].1.members[k].mbrId in Lookup(r.known, items[i].0)
    ensures forall j :: 0 <= j < |r.reported| ==> r.reported[j].member.mbrId !in Lookup(known, r.reported[j].pdtId)
    decreases |items|
  {
    if items == [] then Detection(known, [])
    else
      var pdt := items[0].0;
      var ms := items[0].1.members;
      var seen := Lookup(known, pdt);
      var known' := known[pdt := seen + KeySet(ms, MemberIdOf)];
      var rest := CheckNewMembers(items[1..], known');
      assert forall i :: 1 <= i < |items| ==> items[1..][i - 1] == items[i];
      assert forall k :: 0 <= k < |ms| ==> ms[k].mbrId in Lookup(known', pdt);
      Detection(rest.known, Tag(pdt, Dedup(ms, AnyMember, MemberIdOf, seen)) + rest.reported)
  }

  /** For every product, in snapshot order, the first member with each id, in list order,
      tagged with the product: the sensors the detector could add, in the order it meets
      them. */
  function Candidates(items: Snapshot): seq<NewSensor>
    decreases |items|
  {
    if items == [] then []
    else Tag(items[0].0, Dedup(items[0].1.members, AnyMember, MemberIdOf, {})) + Candidates(items[1..])
  }

  /** Tagging keeps a subsequence a subsequence. */
  lemma {:induction false} TagSubseq(pdt: string, a: seq<Member>, b: seq<Member>)
    requires Subseq(a, b)
    ensures Subseq(Tag(pdt, a), Tag(pdt, b))
    decreases |b|
  {
    if a != [] {
      assert Tag(pdt, b)[1..] == Tag(pdt, b[1..]);
      if a[0] == b[0] && Subseq(a[1..], b[1..]) {
        TagSubseq(pdt, a[1..], b[1..]);
        assert Tag(pdt, a)[1..] == Tag(pdt, a[1..]);
      } else {
        TagSubseq(pdt, a, b[1..]);
      }
    }
  }

  /** The sensors are added in encounter order: the reports are a subsequence of the
      products' members taken in snapshot order, each with its own product, and of a
      repeated id only the first member is ever reported. */
  lemma {:induction false} CheckNewMembersInOrder(items: Snapshot, known: Known)
    ensures Subseq(CheckNewMembers(items, known).reported, Candidates(items))
    decreases |items|
  {
    if items != [] {
      var pdt := items[0].0;
      var ms := items[0].1.members;
      var seen := Lookup(known, pdt);
      var known' := known[pdt := seen + KeySet(ms, MemberIdOf)];
      var added := Dedup(ms, AnyMember, MemberIdOf, seen);
      CheckNewMembersInOrder(items[1..], known');
      DedupMoreSeen(ms, AnyMember, MemberIdOf, seen, {});
      TagSubseq(pdt, added, Dedup(ms, AnyMember, MemberIdOf, {}));
      SubseqAppend(Tag(pdt, added), Tag(pdt, Dedup(ms, AnyMember, MemberIdOf, {})),
        CheckNewMembers(items[1..], known').reported, Candidates(items[1..]));
    }
  }

  /** Every report is a member of the snapshot, tagged with the product it is listed under,
      and the first member of that product's list with its id. */
  lemma CheckNewMembersReportsMembers(items: Snapshot, known: Known)
    ensures var r := CheckNewMembers(items, known);
      forall j :: 0 <= j < |r.reported| ==> ListedIn(items, r.reported[j])
  {
    var r := CheckNewMembers(items, known);
    CheckNewMembersInOrder(items, known);
    SubseqElements(r.reported, Candidates(items));
    forall j | 0 <= j < |r.reported|
      ensures ListedIn(items, r.reported[j])
    {
      CandidatesAreMembers(items, r.reported[j]);
    }
  }

  /** `x` is the first member with its id of some product of the snapshot, tagged with
      that product. */
  ghost predicate ListedIn(items: Snapshot, x: NewSensor) {
    exists i, k :: 0 <= i < |items| && FirstWithId(items[i].1.members, x.member.mbrId, k) &&
      x == NewSensor(items[i].0, items[i].1.members[k])
  }

  /** Every candidate is listed in the snapshot, as the first member with its id. */
  lemma {:induction false} CandidatesAreMembers(items: Snapshot, x: NewSensor)
    requires x in Candidates(items)
    ensures ListedIn(items, x)
    decreases |items|
  {
    var ms := items[0].1.members;
    var d := Dedup(ms, AnyMember, MemberIdOf, {});
    var t := Tag(items[0].0, d);
    if x in t {
      var k :| 0 <= k < |t| && t[k] == x;
      assert d[k] in d;
      DedupKeepsFirstOccurrences(ms, AnyMember, MemberIdOf, {});
      var i :| 0 <= i < |ms| && ms[i] == d[k] && FirstKeptAt(ms, AnyMember, MemberIdOf, i);
      assert FirstWithId(ms, x.member.mbrId, i);
    } else {
      assert x in Candidates(items[1..]);
      CandidatesAreMembers(items[1..], x);
      var i, k :| 0 <= i < |items[1..]| && FirstWithId(items[1..][i].1.members, x.member.mbrId, k) &&
        x == NewSensor(items[1..][i].0, items[1..][i].1.members[k]);
      assert items[1..][i] == items[i + 1];
    }
  }

  /** The ids one product's members add: those not already known. */
  lemma NewIds(ms: seq<Member>, seen: set<string>)
    ensures KeySet(Dedup(ms, AnyMember, MemberIdOf, seen), MemberIdOf) == KeySet(ms, MemberIdOf) - seen
  {
    var d := Dedup(ms, AnyMember, MemberIdOf, seen);
    DedupKeepsFirstOccurrences(ms, AnyMember, MemberIdOf, seen);
    DedupCoversKeys(ms, AnyMember, MemberIdOf, seen);
    forall id | id in KeySet(d, MemberIdOf)
      ensures id in KeySet(ms, MemberIdOf)
    {
      var j :| 0 <= j < |d| && d[j].mbrId == id;
      assert d[j] in d;
      var i :| 0 <= i < |ms| && ms[i] == d[j] && FirstKeptAt(ms, AnyMember, MemberIdOf, i);
      assert MemberIdOf(ms[i]) == id;
    }
  }

  lemma ReportedKeysTag(pdt: string, ms: seq<Member>)
    ensures forall p, id :: (p, id) in ReportedKeys(Tag(pdt, ms)) <==> p == pdt && id in KeySet(ms, MemberIdOf)
  {
    var t := Tag(pdt, ms);
    forall p, id | p == pdt && id in KeySet(ms, MemberIdOf)
      ensures (p, id) in ReportedKeys(t)
    {
      var k :| 0 <= k < |ms| && MemberIdOf(ms[k]) == id;
      assert (t[k].pdtId, t[k].member.mbrId) == (p, id);
    }
  }

  lemma ReportedKeysAppend(a: seq<NewSensor>, b: seq<NewSensor>)
    ensures ReportedKeys(a + b) == ReportedKeys(a) + ReportedKeys(b)
  {
    var ab := a + b;
    forall x | x in ReportedKeys(a)
      ensures x in ReportedKeys(ab)
    {
      var j :| 0 <= j < |a| && (a[j].pdtId, a[j].member.mbrId) == x;
      assert ab[j] == a[j];
    }
    forall x | x in ReportedKeys(b)
      ensures x in ReportedKeys(ab)
    {
      var j :| 0 <= j < |b| && (b[j].pdtId, b[j].member.mbrId) == x;
      assert ab[|a| + j] == b[j];
    }
    forall x | x in ReportedKeys(ab)
      ensures x in ReportedKeys(a) + ReportedKeys(b)
    {
      var j :| 0 <= j < |ab| && (ab[j].pdtId, ab[j].member.mbrId) == x;
      if j >= |a| {
        assert ab[j] == b[j - |a|];
      }
    }
  }

  /** After a check, the known ids are exactly the ones known before plus the ones reported:
      nothing is marked known without a sensor being added for it. Together with the
      function's contract, every member id not known before is reported. */
  lemma {:induction false} CheckNewMembersKnownExactly(items: Snapshot, known: Known)
    ensures var r := CheckNewMembers(items, known);
      forall pdt, id :: id in Lookup(r.known, pdt) <==>
        id in Lookup(known, pdt) || (pdt, id) in ReportedKeys(r.reported)
    decreases |items|
  {
    if items != [] {
      var pdt := items[0].0;
      var ms := items[0].1.members;
      var seen := Lookup(known, pdt);
      var known' := known[pdt := seen + KeySet(ms, MemberIdOf)];
      var rest := CheckNewMembers(items[1..], known');
      var added := Dedup(ms, AnyMember, MemberIdOf, seen);
      CheckNewMembersKnownExactly(items[1..], known');
      NewIds(ms, seen);
      ReportedKeysTag(pdt, added);
      ReportedKeysAppend(Tag(pdt, added), rest.reported);
    }
  }

  /** Every new member id is reported with its product: a sensor is added for it. */
  lemma CheckNewMembersCovers(items: Snapshot, known: Known)
    ensures var r := CheckNewMembers(items, known);
      forall i, k ::
        (0 <= i < |items| && 0 <= k < |items[i].1.members| &&
         items[i].1.members[k].mbrId !in Lookup(known, items[i].0)) ==>
        (items[i].0, items[i].1.members[k].mbrId) in ReportedKeys(r.reported)
  {
    CheckNewMembersKnownExactly(items, known);
  }

  /** No two reports name the same product and member id. */
  ghost predicate ReportsDistinct(rep: seq<NewSensor>) {
    forall a, b :: 0 <= a < b < |rep| ==>
      (rep[a].pdtId, rep[a].member.mbrId) != (rep[b].pdtId, rep[b].member.mbrId)
  }

  lemma ReportsDistinctAppend(t: seq<NewSensor>, rest: seq<NewSensor>)
    requires ReportsDistinct(t) && ReportsDistinct(rest)
    requires forall a, b :: 0 <= a < |t| && 0 <= b < |rest| ==>
      (t[a].pdtId, t[a].member.mbrId) != (rest[b].pdtId, rest[b].member.mbrId)
    ensures ReportsDistinct(t + rest)
  {
    var rep := t + rest;
    forall a, b | 0 <= a < b < |rep|
      ensures (rep[a].pdtId, rep[a].member.mbrId) != (rep[b].pdtId, rep[b].member.mbrId)
    {
      if b < |t| {
        assert rep[a] == t[a] && rep[b] == t[b];
      } else if a < |t| {
        assert rep[a] == t[a] && rep[b] == rest[b - |t|];
      } else {
        assert rep[a] == rest[a - |t|] && rep[b] == rest[b - |t|];
      }
    }
  }

  /** No sensor is added twice: the reported (product, member id) pairs are distinct. */
  lemma {:induction false} CheckNewMembersReportsOnce(items: Snapshot, known: Known)
    ensures ReportsDistinct(CheckNewMembers(items, known).reported)
    decreases |items|
  {
    if items != [] {
      var pdt := items[0].0;
      var ms := items[0].1.members;
      var seen := Lookup(known, pdt);
      var known' := known[pdt := seen + KeySet(ms, MemberIdOf)];
      var rest := CheckNewMembers(items[1..], known');
      var added := Dedup(ms, AnyMember, MemberIdOf, seen);
      var t := Tag(pdt, added);
      CheckNewMembersReportsOnce(items[1..], known');
      NewIds(ms, seen);
      assert ReportsDistinct(t) by {
        forall a, b | 0 <= a < b < |t|
          ensures t[a].member.mbrId != t[b].member.mbrId
        {
          assert MemberIdOf(added[a]) != MemberIdOf(added[b]);
        }
      }
      forall a, b | 0 <= a < |t| && 0 <= b < |rest.reported| && rest.reported[b].pdtId == pdt
        ensures t[a].member.mbrId != rest.reported[b].member.mbrId
      {
        assert MemberIdOf(added[a]) in KeySet(added, MemberIdOf);
        assert Lookup(known', pdt) == seen + KeySet(ms, MemberIdOf);
      }
      ReportsDistinctAppend(t, rest.reported);
    }
  }

  /** When every member id is already known, nothing is reported and nothing changes. */
  lemma {:induction false} NothingNewNothingReported(items: Snapshot, known: Known)
    requires forall i, k :: 0 <= i < |items| && 0 <= k < |items[i].1.members| ==>
      items[i].1.members[k].mbrId in Lookup(known, items[i].0)
    ensures var r := CheckNewMembers(items, known);
      r.reported == [] && forall pdt :: Lookup(r.known, pdt) == Lookup(known, pdt)
    decreases |items|
  {
    if items != [] {
      var pdt := items[0].0;
      var ms := items[0].1.members;
      var seen := Lookup(known, pdt);
      var known' := known[pdt := seen + KeySet(ms, MemberIdOf)];
      var added := Dedup(ms, AnyMember, MemberIdOf, seen);
      DedupAllSeen(ms, AnyMember, MemberIdOf, seen);
      assert forall p :: Lookup(known', p) == Lookup(known, p);
      assert forall i :: 1 <= i < |items| ==> items[1..][i - 1] == items[i];
      NothingNewNothingReported(items[1..], known');
    }
  }

  /** Checking the same snapshot twice adds no sensor the second time. */
  lemma CheckNewMembersIdempotent(items: Snapshot, known: Known)
    ensures var r := CheckNewMembers(items, known);
      var r2 := CheckNewMembers(items, r.known);
      r2.reported == [] && forall pdt :: Lookup(r2.known, pdt) == Lookup(r.known, pdt)
  {
    NothingNewNothingReported(items, CheckNewMembers(items, known).known);
  }

  /** The first update after setup, on the snapshot the sensors were created from, adds no
      member sensor. */
  lemma InitialSnapshotReportsNothing(snap: Snapshot)
    requires Valid(snap)
    ensures CheckNewMembers(snap, InitialKnown(snap)).reported == []
  {
    var k := InitialKnown(snap);
    InitialKnownContents(snap);
    forall i, m | 0 <= i < |snap| && 0 <= m < |snap[i].1.members|
      ensures snap[i].1.members[m].mbrId in Lookup(k, snap[i].0)
    {
      assert LastKeyAt(snap, i);
      assert MemberIdOf(snap[i].1.members[m]) in KeySet(snap[i].1.members, MemberIdOf);
    }
    NothingNewNothingReported(snap, k);
  }
}

=== FILE: seqs.dfy ===
/** Generic list operations the integration uses on JSON arrays: order-preserving filtering
    and first-occurrence de-duplication by a key. */
module Seqs {

  /** `a` is `b` with zero or more elements deleted, the rest kept in order. */
  ghost predicate Subseq<T>(a: seq<T>, b: seq<T>)
    decreases |b|
  {
    if a == [] then true
    else if b == [] then false
    else (a[0] == b[0] && Subseq(a[1..], b[1..])) || Subseq(a, b[1..])
  }

  /** Every element of a subsequence is an element of the whole. */
  lemma {:induction false} SubseqElements<T>(a: seq<T>, b: seq<T>)
    requires Subseq(a, b)
    ensures forall x :: x in a ==> x in b
    decreases |b|
  {
    if a != [] {
      if a[0] == b[0] && Subseq(a[1..], b[1..]) {
        SubseqElements(a[1..], b[1..]);
        assert forall x :: x in a ==> x == a[0] || x in a[1..];
        assert forall x :: x in b[1..] ==> x in b;
      } else {
        SubseqElements(a, b[1..]);
        assert forall x :: x in b[1..] ==> x in b;
      }
    }
  }

  /** A subsequence of `b` is a subsequence of anything ending in `b`. */
  lemma {:induction false} SubseqExtendFront<T>(a: seq<T>, pre: seq<T>, b: seq<T>)
    requires Subseq(a, b)
    ensures Subseq(a, pre + b)
    decreases |pre|
  {
    if a != [] && pre != [] {
      SubseqExtendFront(a, pre[1..], b);
      assert (pre + b)[1..] == pre[1..] + b;
    } else if pre == [] {
      assert pre + b == b;
    }
  }

  /** Subsequences of two sequences concatenate to a subsequence of their concatenation. */
  lemma {:induction false} SubseqAppend<T>(a: seq<T>, b: seq<T>, c: seq<T>, d: seq<T>)
    requires Subseq(a, b) && Subseq(c, d)
    ensures Subseq(a + c, b + d)
    decreases |b|
  {
    if a == [] {
      assert a + c == c;
      SubseqExtendFront(c, b, d);
    } else {
      assert (a + c)[0] == a[0] && (a + c)[1..] == a[1..] + c;
      assert (b + d)[0] == b[0] && (b + d)[1..] == b[1..] + d;
      if a[0] == b[0] && Subseq(a[1..], b[1..]) {
        SubseqAppend(a[1..], b[1..], c, d);
      } else {
        SubseqAppend(a, b[1..], c, d);
      }
    }
  }

  /** The elements of `xs` satisfying `p`, in order, duplicates kept
      (a Python list comprehension with an `if` clause). */
  function Filter<T(!new)>(xs: seq<T>, p: T -> bool): (r: seq<T>)
    ensures forall i :: 0 <= i < |r| ==> p(r[i])
    ensures forall x :: multiset(r)[x] == if p(x) then multiset(xs)[x] else 0
    ensures |r| <= |xs|
  {
    if xs == [] then []
    else
      assert xs == [xs[0]] + xs[1..];
      (if p(xs[0]) then [xs[0]] else []) + Filter(xs[1..], p)
  }

  lemma {:induction false} FilterIsSubseq<T(!new)>(xs: seq<T>, p: T -> bool)
    ensures Subseq(Filter(xs, p), xs)
    decreases |xs|
  {
    if xs != [] {
      FilterIsSubseq(xs[1..], p);
      var r := Filter(xs, p);
      if p(xs[0]) {
        assert r[0] == xs[0] && r[1..] == Filter(xs[1..], p);
      } else {
        assert r == Filter(xs[1..], p);
      }
    }
  }

  /** The keys of the elements of `xs`. */
  function KeySet<T, K>(xs: seq<T>, key: T -> K): set<K>
  {
    set i | 0 <= i < |xs| :: key(xs[i])
  }

  /** `xs[i]` is the first element of `xs` satisfying `keep` that carries its key. */
  ghost predicate FirstKeptAt<T, K>(xs: seq<T>, keep: T -> bool, key: T -> K, i: int)
    requires 0 <= i < |xs|
  {
    && keep(xs[i])
    && forall j :: 0 <= j < i && keep(xs[j]) ==> key(xs[j]) != key(xs[i])
  }

  /** Scans `xs` in order and keeps each element that satisfies `keep` and whose key is not
      yet seen, adding that key to the seen set (the `seen`-set loop idiom). */
  function Dedup<T, K>(xs: seq<T>, keep: T -> bool, key: T -> K, seen: set<K>): (r: seq<T>)
    ensures forall i :: 0 <= i < |r| ==> keep(r[i]) && key(r[i]) !in seen
    ensures forall i, j :: 0 <= i < j < |r| ==> key(r[i]) != key(r[j])
    decreases |xs|
  {
    if xs == [] then []
    else if keep(xs[0]) && key(xs[0]) !in seen then
      [xs[0]] + Dedup(xs[1..], keep, key, seen + {key(xs[0])})
    else
      Dedup(xs[1..], keep, key, seen)
  }

  /** The kept elements appear in the same relative order as in the input. */
  lemma {:induction false} DedupIsSubseq<T, K>(xs: seq<T>, keep: T -> bool, key: T -> K, seen: set<K>)
    ensures Subseq(Dedup(xs, keep, key, seen), xs)
    decreases |xs|
  {
    if xs != [] {
      var r := Dedup(xs, keep, key, seen);
      if keep(xs[0]) && key(xs[0]) !in seen {
        DedupIsSubseq(xs[1..], keep, key, seen + {key(xs[0])});
        assert r[0] == xs[0] && r[1..] == Dedup(xs[1..], keep, key, seen + {key(xs[0])});
      } else {
        DedupIsSubseq(xs[1..], keep, key, seen);
      }
    }
  }

  /** Starting with more keys seen keeps a subsequence of what starting with fewer keeps. */
  lemma {:induction false} DedupMoreSeen<T, K>(xs: seq<T>, keep: T -> bool, key: T -> K, seen: set<K>, fewer: set<K>)
    requires fewer <= seen
    ensures Subseq(Dedup(xs, keep, key, seen), Dedup(xs, keep, key, fewer))
    decreases |xs|
  {
    if xs != [] {
      var x := xs[0];
      var a := Dedup(xs, keep, key, seen);
      var b := Dedup(xs, keep, key, fewer);
      if keep(x) && key(x) !in seen {
        DedupMoreSeen(xs[1..], keep, key, seen + {key(x)}, fewer + {key(x)});
        assert a[0] == b[0] && a[1..] == Dedup(xs[1..], keep, key, seen + {key(x)});
        assert b[1..] == Dedup(xs[1..], keep, key, fewer + {key(x)});
      } else if keep(x) && key(x) !in fewer {
        DedupMoreSeen(xs[1..], keep, key, seen, fewer + {key(x)});
        assert b[1..] == Dedup(xs[1..], keep, key, fewer + {key(x)});
      } else {
        DedupMoreSeen(xs[1..], keep, key, seen, fewer);
      }
    }
  }

  /** Every kept element is the first occurrence, among the elements satisfying `keep`, of its key. */
  lemma {:induction false} DedupKeepsFirstOccurrences<T, K>(xs: seq<T>, keep: T -> bool, key: T -> K, seen: set<K>)
    ensures forall y :: y in Dedup(xs, keep, key, seen) ==>
      exists i :: 0 <= i < |xs| && xs[i] == y && FirstKeptAt(xs, keep, key, i)
    decreases |xs|
  {
    if xs != [] {
      var isNew := keep(xs[0]) && key(xs[0]) !in seen;
      var seen' := if isNew then seen + {key(xs[0])} else seen;
      var rest := Dedup(xs[1..], keep, key, seen');
      DedupKeepsFirstOccurrences(xs[1..], keep, key, seen');
      forall y | y in Dedup(xs, keep, key, seen)
        ensures exists i :: 0 <= i < |xs| && xs[i] == y && FirstKeptAt(xs, keep, key, i)
      {
        if isNew && y == xs[0] {
          assert FirstKeptAt(xs, keep, key, 0);
        } else {
          assert y in rest;
          var i :| 0 <= i < |xs[1..]| && xs[1..][i] == y && FirstKeptAt(xs[1..], keep, key, i);
          assert key(y) !in seen';
          assert FirstKeptAt(xs, keep, key, i + 1);
        }
      }
    }
  }

  /** When every key is already seen, nothing is kept. */
  lemma {:induction false} DedupAllSeen<T, K>(xs: seq<T>, keep: T -> bool, key: T -> K, seen: set<K>)
    requires forall i :: 0 <= i < |xs| && keep(xs[i]) ==> key(xs[i]) in seen
    ensures Dedup(xs, keep, key, seen) == []
    decreases |xs|
  {
    if xs != [] {
      assert forall i :: 1 <= i < |xs| ==> xs[1..][i - 1] == xs[i];
      DedupAllSeen(xs[1..], keep, key, seen);
    }
  }

  /** Every key of an element satisfying `keep` and not seen beforehand is kept once. */
  lemma {:induction false} DedupCoversKeys<T, K>(xs: seq<T>, keep: T -> bool, key: T -> K, seen: set<K>)
    ensures forall i :: 0 <= i < |xs| && keep(xs[i]) && key(xs[i]) !in seen ==>
      key(xs[i]) in KeySet(Dedup(xs, keep, key, seen), key)
    decreases |xs|
  {
    if xs != [] {
      var r := Dedup(xs, keep, key, seen);
      var isNew := keep(xs[0]) && key(xs[0]) !in seen;
      var seen' := if isNew then seen + {key(xs[0])} else seen;
      var rest := Dedup(xs[1..], keep, key, seen');
      DedupCoversKeys(xs[1..], keep, key, seen');
      assert r == if isNew then [xs[0]] + rest else rest;
      forall i | 0 <= i < |xs| && keep(xs[i]) && key(xs[i]) !in seen
        ensures key(xs[i]) in KeySet(r, key)
      {
        if isNew && key(xs[i]) == key(xs[0]) {
          assert key(r[0]) == key(xs[i]);
        } else {
          assert i > 0;
          assert xs[1..][i - 1] == xs[i];
          assert key(xs[1..][i - 1]) in KeySet(rest, key);
          var j :| 0 <= j < |rest| && key(rest[j]) == key(xs[i]);
          if isNew {
            assert key(r[j + 1]) == key(xs[i]);
          } else {
            assert key(r[j]) == key(xs[i]);
          }
        }
      }
    }
  }
}

=== FILE: strings.dfy ===
/** String operations the integration relies on: substring search (Python `in`,
    `str.split`) and the ASCII character classes of the regular expression `\w`, `\d`. */
module Strings {
  import opened Wrappers

  /** `sub` occurs in `s` starting at index `i`. */
  predicate OccursAt(s: string, sub: string, i: nat) {
    i + |sub| <= |s| && s[i..i + |sub|] == sub
  }

  /** Index of the first occurrence of `sub` in `s` at or after `from`. */
  function FindFrom(s: string, sub: string, from: nat): (r: Option<nat>)
    ensures r.Some? ==> from <= r.value && OccursAt(s, sub, r.value)
    ensures forall j: nat :: from <= j && (r.None? || j < r.value) ==> !OccursAt(s, sub, j)
    decreases |s| - from
  {
    if from + |sub| > |s| then None
    else if OccursAt(s, sub, from) then Some(from)
    else FindFrom(s, sub, from + 1)
  }

  /** Index of the first occurrence of `sub` in `s` (Python `s.find(sub)`, absent for -1). */
  function Find(s: string, sub: string): Option<nat> {
    FindFrom(s, sub, 0)
  }

  /** Python `sub in s`. */
  predicate Contains(s: string, sub: string) {
    Find(s, sub).Some?
  }

  predicate IsDigit(c: char) {
    '0' <= c <= '9'
  }

  /** The ASCII reading of the regular-expression class `\w`. */
  predicate IsWordChar(c: char) {
    'a' <= c <= 'z' || 'A' <= c <= 'Z' || IsDigit(c) || c == '_'
  }

  predicate AllDigits(s: string) {
    forall i :: 0 <= i < |s| ==> IsDigit(s[i])
  }

  predicate AllWordChars(s: string) {
    forall i :: 0 <= i < |s| ==> IsWordChar(s[i])
  }

  /** End of the maximal run of word characters that starts at `i` (the extent a greedy
      `\w*` reaches from `i`). */
  function WordRunEnd(s: string, i: nat): (e: nat)
    requires i <= |s|
    ensures i <= e <= |s|
    ensures forall k :: i <= k < e ==> IsWordChar(s[k])
    ensures e < |s| ==> !IsWordChar(s[e])
    decreases |s| - i
  {
    if i < |s| && IsWordChar(s[i]) then WordRunEnd(s, i + 1) else i
  }

  /** The largest index `p` with `lo <= p < hi` and `s[p] == c`. */
  function LastIndexIn(s: string, c: char, lo: nat, hi: nat): (r: Option<nat>)
    requires lo <= hi <= |s|
    ensures r.Some? ==> lo <= r.value < hi && s[r.value] == c
    ensures r.Some? ==> forall k :: r.value < k < hi ==> s[k] != c
    ensures r.None? ==> forall k :: lo <= k < hi ==> s[k] != c
    decreases hi - lo
  {
    if lo == hi then None
    else if s[hi - 1] == c then Some(hi - 1)
    else LastIndexIn(s, c, lo, hi - 1)
  }
}

=== FILE: wrappers.dfy ===
/** Option and Result: the model's stand-ins for Python's `None` and for raised exceptions. */
module Wrappers {

  /** A value that may be absent (Python `None`). */
  datatype Option<+T> = None | Some(value: T) {

    /** The wrapped value, or `default` when absent (Python `x if x is not None else default`). */
    function GetOr(default: T): T {
      match this
      case Some(v) => v
      case None => default
    }
  }

  /** The outcome of a call that either returns a value or raises an error. */
  datatype Result<+T, +E> = Success(value: T) | Failure(error: E)
}
